=== FILE: README.md ===
# Law-text parser of LawRefBook, modelled in Dafny

LawRefBook shows Chinese statutes stored as Markdown-like text files. When a
law is opened, `LawModel.init` reads the file and parses it in a single pass
into three parts:

- a title (`Name`);
- a list of preamble entries (`Desc`, each an `Info` with a `header` and a
  `content`);
- a list of sections (`Body`, each a `TextContent` with a title and its
  clauses).

The clause list then filters clauses by the search text. `HightedText` cuts
each clause at every occurrence of the search text so that those occurrences
can be drawn in bold.

This project models that parser and the two view helpers as pure Dafny, and
proves what they do:

- `wrappers.dfy`: `Option` and `Result`.
- `text.dfy`: the Foundation and Swift string operations the parser relies
  on. These are substring search, `components(separatedBy:)` with its
  inverse `Join`, `trimmingCharacters(in: [" ", "\n"])`,
  `split(separator: " ", maxSplits: 1)` and `Array.filter`.
- `article_mark.dfy`: the clause-opener test, the ICU regular expression
  `第.+条` searched anywhere in a line. `HasMark` states what counts as a
  match. `Matches` is a one-pass scanner, and a lemma proves the two agree.
- `law_model.dfy`: the data model, the per-line `Step` of the loop, the fold
  `Run`, and `Parse`. It also has an imperative `ParseLaw` loop (with
  `ApplyLine`, written with the app's own variables) proved equal to `Parse`.
- `law_properties.dfy`: what the parse does to a whole document: preamble
  entries, the title, the sentinel, headings, clause grouping, and text
  preservation.
- `content_list.dfy`: the search filter over clauses and sections, and
  `HightedText` as a list of plain and bold spans.
- `law_samples.dfy`: a small well-formed document and one document for each
  error, worked through line by line.

The three inputs on which the app indexes out of range become explicit
errors of type `ParseError`:

- `MissingTitle`: the first line has no space (`out[1]` at line 62).
- `HeadingWithoutTitle`: a `#` heading has no space (`out[1]` at line 81).
- `ClauseBeforeSection`: a clause line comes before any heading
  (`Body[count - 1]` at line 83).

The loop stops at the first such line.

Characters are Unicode scalar values (`char`).

## Model

| member | source | states |
|---|---|---|
| Text.IndexOf | law.handbook/LawContentView.swift:178 | the substring search behind `contains`: it finds an occurrence exactly when the pattern occurs, and the one it finds is the leftmost |
| Text.JoinComponents | law.handbook/LawContentView.swift:41 | cutting a text at every `"\n"` and joining the pieces back with `"\n"` gives the text back |
| Text.ComponentsAvoidSeparator | law.handbook/LawContentView.swift:164 | no piece produced by `components(separatedBy:)` contains the separator; where each cut falls is fixed by `Text.ComponentsCutLeftmost` |
| Text.ComponentsCutLeftmost | law.handbook/LawContentView.swift:164 | every cut is at the leftmost occurrence of the separator left: no occurrence starts inside a piece, even one overlapping the separator after it, which determines the pieces together with the round trip and `ComponentsAvoidSeparator` |
| Text.OverlappingSeparator | law.handbook/LawContentView.swift:164 | `"aaa"` cut at `"aa"` gives `""` and `"a"`, so the bold copy is the one at offset 0 |
| Text.Trim | law.handbook/LawContentView.swift:42 | the trimmed line has no `' '` or `'\n'` at either end, and the original is the trimmed line wrapped in runs of those two characters |
| Text.TrimUnique | law.handbook/LawContentView.swift:42 | any way of writing a text as trim characters, a trimmed core and trim characters has that core equal to `Trim` of the text |
| Text.TrimIdempotent | law.handbook/LawContentView.swift:42 | trimming an already trimmed line changes nothing |
| Text.SplitOnce | law.handbook/LawContentView.swift:55 | `split(separator: " ", maxSplits: 1)` gives at most two non-empty pieces, none at all exactly when the text is all spaces, and the first piece contains no space; after its leading spaces the text is the first piece followed by nothing or a lone space (one piece), or by one space and the second piece (two pieces) |
| Text.SplitTrimmedLine | law.handbook/LawContentView.swift:55 | on a non-empty trimmed line the split gives the whole line, or the text before the first space and the text after it, which glued with one space give the line back |
| Text.SplitOnceAt | law.handbook/LawContentView.swift:55 | a space-free word, a space and a non-empty rest split into exactly that word and that rest |
| Text.SplitOnceWord | law.handbook/LawContentView.swift:55 | a non-empty word without spaces splits into itself alone |
| Text.KeepIsSelection | law.handbook/LawContentView.swift:43-45 | `filter` keeps exactly the elements that pass, in their original order, each once |
| Text.KeepAll | law.handbook/LawContentView.swift:178 | a filter that every element passes returns the sequence unchanged |
| ArticleMark.MatchesIsHasMark | law.handbook/LawContentView.swift:84 | the scanner finds a match exactly when some `第` is followed, with at least one character between and no line terminator, by a `条` |
| ArticleMark.NoDiNoMatch | law.handbook/LawContentView.swift:84 | a line without `第` never matches `第.+条`, so it opens a clause only as the first clause of an empty section |
| LawModel.TrimmedLines | law.handbook/LawContentView.swift:41-42 | one line per `"\n"`-separated piece of the text, in order; each has no `' '` or `'\n'` at either end and is its piece with runs of those two characters removed from both ends, which by `Text.TrimUnique` determines it |
| LawModel.ErrorStops | law.handbook/LawContentView.swift:49-93 | once a line is malformed, later lines cannot change the outcome: the parse fails with that line's error |
| LawModel.ApplyLine | law.handbook/LawContentView.swift:50-92 | the loop body, written with `isDesc`, `Name`, `Desc` and `Body` as mutable variables, computes exactly `Step` |
| LawModel.RunLines | law.handbook/LawContentView.swift:47-93 | the loop over the lines stops at the first malformed line and otherwise yields exactly the fold `Run` |
| LawModel.ParseLaw | law.handbook/LawContentView.swift:41-93 | preprocessing then the loop computes exactly `Parse` |
| LawProperties.WorkingLinesWellFormed | law.handbook/LawContentView.swift:41-58 | every working line is non-empty, trimmed and free of `'\n'`, and splits into at least one piece, so the two `continue` skips never fire |
| LawProperties.WorkingLinesInOrder | law.handbook/LawContentView.swift:41-45 | the working lines are the non-empty trimmed source lines, in source order, and the source lines joined by `"\n"` are the text |
| LawProperties.TitleWithoutSpaceFails | law.handbook/LawContentView.swift:60-63 | a first line without a space makes the parse fail with `MissingTitle(0)` |
| LawProperties.NameIsTitle | law.handbook/LawContentView.swift:60-64 | after a successful parse, the name is the text after the first space of line 0, whatever follows |
| LawProperties.TitleLineNames | law.handbook/LawContentView.swift:55-64 | a first line made of a word, a space and a rest names the law with that rest and changes nothing else |
| LawProperties.FirstLineOnlyNames | law.handbook/LawContentView.swift:60-64 | line 0 never adds a preamble entry or a section and never changes the mode, even when it is the sentinel |
| LawProperties.DescIsPreamble | law.handbook/LawContentView.swift:47-78 | after a successful parse there is one preamble entry per line strictly between line 0 and the first sentinel, in order, each describing its line; the mode is `Body` exactly when a sentinel was seen |
| LawProperties.StepDesc | law.handbook/LawContentView.swift:66-78 | past line 0, a preamble line that is not the sentinel appends exactly one entry describing it and leaves the mode, the name and the sections unchanged; any other line leaves the entries alone and the mode `Body`; that such a line is always accepted is `LawProperties.PreambleLineAccepted` |
| LawProperties.PreambleLineAccepted | law.handbook/LawContentView.swift:71-77 | past line 0, a working line before the sentinel never makes the step fail, since `out[1]` is read only when there are two pieces; a line without a space adds the entry with that line as header and empty content |
| LawProperties.PreambleHasNoSections | law.handbook/LawContentView.swift:66-81 | while a run is still before the sentinel, it has no sections: only a body-mode heading opens one |
| LawProperties.SentinelOnlySwitchesMode | law.handbook/LawContentView.swift:66-69 | past line 0 the sentinel only switches to `Body` and is stored nowhere |
| LawProperties.BodyModeIsFinal | law.handbook/LawContentView.swift:66-78 | once in `Body` mode no line changes the mode, the name or the preamble entries |
| LawProperties.HeadingOpensSection | law.handbook/LawContentView.swift:80-81 | a body line starting with `#` appends one empty section titled with the text after its first space, leaving earlier sections as they were, or fails with `HeadingWithoutTitle` when it has no space |
| LawProperties.ClauseLineJoinsLastSection | law.handbook/LawContentView.swift:82-91 | a non-heading body line fails with `ClauseBeforeSection` when no section is open; otherwise it changes only the last section: a new last clause when that section is empty or the line has an article mark, else glued onto the last clause after `"\n    "` |
| LawProperties.AddClauseLineKeepsText | law.handbook/LawContentView.swift:83-91 | adding a line to a section adds exactly that line to the section's clauses glued with `"\n    "`, and adds a clause exactly when the section was empty or the line has an article mark |
| LawProperties.FeedKeepsText | law.handbook/LawContentView.swift:83-91 | the clauses built from the lines under a heading, glued with `"\n    "`, are exactly those lines glued the same way: one clause for the first line and one more per later line with an article mark |
| LawProperties.ClauseLinesFeedLastSection | law.handbook/LawContentView.swift:82-91 | once a section is open, a run of clause lines goes entirely into that section and nowhere else |
| LawProperties.SectionReproducesItsLines | law.handbook/LawContentView.swift:80-91 | a heading followed by clause lines yields one new section, titled from the heading, whose clauses reproduce those lines, with earlier sections unchanged |
| ContentList.VisibleClausesSpec | law.handbook/LawContentView.swift:178 | with an empty query every clause is visible; otherwise the visible clauses are exactly those containing the query, in order |
| ContentList.ListingSpec | law.handbook/LawContentView.swift:177-180 | the list shows, in order, exactly the sections with a visible clause, each under its own title with its visible clauses, and never an empty section |
| ContentList.EmptyQueryListsNonEmptySections | law.handbook/LawContentView.swift:178-179 | with an empty query the list shows every section that has a clause, unchanged and in order, and hides the empty ones |
| ContentList.InterleaveShape | law.handbook/LawContentView.swift:164-170 | interleaving the pieces with the query draws the pieces joined by the query, with spans alternating plain and bold and every bold span equal to the query |
| ContentList.HighlightRoundTrip | law.handbook/LawContentView.swift:160-172 | the spans of `HightedText` draw exactly the clause; every bold span is the query, no plain span contains a non-empty query, and no occurrence of the query starts inside a plain span, so each bold span is the leftmost occurrence after the previous one |
| LawSamples.SampleDocument | law.handbook/LawContentView.swift:49-93 | a seven-line document parses to the expected law. Its lines are a title, one preamble entry, the sentinel, a heading, a first clause, a line without an article mark that is glued onto that clause, and a second clause that opens a new clause because of its article mark |
| LawSamples.SampleMissingTitle | law.handbook/LawContentView.swift:60-62 | a one-word first line gives `MissingTitle(0)` |
| LawSamples.SampleClauseBeforeSection | law.handbook/LawContentView.swift:82-83 | a clause line right after the sentinel gives `ClauseBeforeSection` |
| LawSamples.SampleHeadingWithoutTitle | law.handbook/LawContentView.swift:80-81 | a `#` heading without a space gives `HeadingWithoutTitle` |

## Left out

- Locating and reading the law file: the directory and file name, `Bundle.main.path` and `String(contentsOfFile:)` (lines 29-39 and 95-100). This is file-system I/O. The model starts from the file's text.
- `DispatchQueue.main.async` (line 40). This only schedules the parse on the main thread. The parse is a pure function here.
- The `@Published` observation of `Name`, `Desc` and `Body`, and the `UUID` ids of `Info` and `TextContent` (lines 11-26). The ids are random and play no part in parsing.
- `OpenMail` and `Report` (lines 104-118). These format a mailto URL and call `UIApplication`.
- All SwiftUI views and modifiers, bold and font styling, and the Core Data favourites (lines 120-242). `HightedText` is modelled as the list of plain and bold spans it draws.
- Characters are Unicode scalar values, and every comparison in the model is exact equality of scalars. The source's operations compare text in different ways:
  - `trimmingCharacters(in:)` removes scalars from the set, as the model does.
  - `range(of:options: .regularExpression)` is an ICU search over code points, as the model's scanner is.
  - `components(separatedBy:)` and `contains` are Foundation string searches. Without the `.literal` option, Foundation may treat canonically equivalent texts as equal.
  - `split`, `hasPrefix` and `==` work on `Character`s, which are extended grapheme clusters, and `==` compares under canonical equivalence.
  - The model can therefore differ from the app only on text where Unicode's grapheme rules join a character to a neighbouring space, `#`, search text or sentinel, or on text written in another normalisation form. Such characters include combining marks, variation selectors, the zero-width joiner U+200D, emoji modifiers such as U+1F3FB, and prepend characters such as U+0600. For example, Swift does not split `"TAG \u{200D}Name"` at its space, but the model does.
- The regular expression is modelled only for the pattern `第.+条` with ICU's default `.`, which does not match `\n`, `\v`, `\f`, `\r`, U+0085, U+2028 or U+2029. Since only `' '` and `'\n'` are trimmed, a `\r` can survive into a line, and it blocks a match there.
- A body line without a space is not an error in the model. The code only indexes `out[1]` for `#` headings, and uses the whole line for any other body line.
- The model's errors (`MissingTitle`, `ClauseBeforeSection`, `HeadingWithoutTitle`) cover exactly the three crashing accesses in the code. A missing or unreadable file belongs to file reading, which is left out.
- Line 0 is handled before the sentinel test. A first line that happens to be `<!-- INFO END -->` therefore names the law `INFO END -->` and does not end the preamble (`FirstLineOnlyNames` states this).

=== FILE: article_mark.dfy ===
/** The clause-opener test of the law-text parser: whether a line contains a
    match of the unanchored ICU regular expression `第.+条` ("article N").
    `HasMark` states what a match is; `Matches` is a one-pass scanner, and
    `MatchesIsHasMark` proves the two agree on every string. */
module ArticleMark {

  /** U+7B2C, the character that opens "第 N 条". */
  const Di: char := '第'
  /** U+6761, the character that closes "第 N 条". */
  const Tiao: char := '条'

  /** The characters ICU's `.` refuses to match by default. */
  predicate IsLineTerminator(c: char)
  {
    c == '\n' || c == '\U{000B}' || c == '\U{000C}' || c == '\r'
    || c == '\U{0085}' || c == '\U{2028}' || c == '\U{2029}'
  }

  /** `s[i..j + 1]` is a match of `第.+条`: a `第` at `i`, a `条` at `j`, at
      least one character between them, and no line terminator between them. */
  ghost predicate MarkSpan(s: string, i: int, j: int)
  {
    && 0 <= i && i + 1 < j < |s|
    && s[i] == Di && s[j] == Tiao
    && forall k :: i < k < j ==> !IsLineTerminator(s[k])
  }

  /** Some substring of `s` matches `第.+条`. */
  ghost predicate HasMark(s: string)
  {
    exists i, j :: MarkSpan(s, i, j)
  }

  /** What the scanner remembers about the text read so far: no usable `第`,
      a `第` as the last character, or a `第` followed by at least one
      character and no line terminator since (so a `条` now completes a match). */
  datatype Scan = Idle | AfterDi | Open

  function Next(st: Scan, c: char): Scan
  {
    if IsLineTerminator(c) then Idle
    else if st != Idle then Open
    else if c == Di then AfterDi
    else Idle
  }

  /** A `第` at `i` has at least one character after it in `s[..n]`, with no
      line terminator in `s[i + 1..n]`. */
  ghost predicate OpenAt(s: string, n: int, i: int)
  {
    && 0 <= i && i + 1 < n <= |s|
    && s[i] == Di
    && forall k :: i < k < n ==> !IsLineTerminator(s[k])
  }

  /** `st` is the right summary of `s[..n]`. */
  ghost predicate Summarises(s: string, n: nat, st: Scan)
  {
    && n <= |s|
    && (st == Open <==> exists i :: OpenAt(s, n, i))
    && (st == AfterDi <==> (!(exists i :: OpenAt(s, n, i)) && n > 0 && s[n - 1] == Di))
  }

  /** No match ends before position `n`. */
  ghost predicate NoMarkBefore(s: string, n: nat)
  {
    forall i, j :: j < n ==> !MarkSpan(s, i, j)
  }

  function MatchFrom(s: string, n: nat, st: Scan): bool
    requires n <= |s|
    decreases |s| - n
  {
    if n == |s| then false
    else if st == Open && s[n] == Tiao then true
    else MatchFrom(s, n + 1, Next(st, s[n]))
  }

  /** The executable test the parser runs on every body line. */
  function Matches(s: string): bool
  {
    MatchFrom(s, 0, Idle)
  }

  /** Reading one more character keeps the summary right. */
  lemma NextSummarises(s: string, n: nat, st: Scan)
    requires Summarises(s, n, st) && n < |s|
    ensures Summarises(s, n + 1, Next(st, s[n]))
  {
    var c := s[n];
    var m := n + 1;
    if IsLineTerminator(c) {
      forall i ensures !OpenAt(s, m, i) {
        if 0 <= i < n {
          assert i < n < n + 1;
        }
      }
    } else if st == Open {
      var i :| OpenAt(s, n, i);
      assert OpenAt(s, n + 1, i);
    } else if st == AfterDi {
      assert OpenAt(s, n + 1, n - 1);
    } else {
      forall i ensures !OpenAt(s, m, i) {
        if i + 1 < n {
          assert !OpenAt(s, n, i);
        }
      }
    }
  }

  /** Scanning from a correct summary with no match so far finds a match
      exactly when the string has one. */
  lemma {:induction false} MatchFromCorrect(s: string, n: nat, st: Scan)
    requires Summarises(s, n, st) && NoMarkBefore(s, n)
    ensures MatchFrom(s, n, st) <==> HasMark(s)
    decreases |s| - n
  {
    if n == |s| {
      assert !HasMark(s);
    } else if st == Open && s[n] == Tiao {
      var i :| OpenAt(s, n, i);
      assert MarkSpan(s, i, n);
    } else {
      forall i, j | j < n + 1
        ensures !MarkSpan(s, i, j)
      {
        assert MarkSpan(s, i, n) ==> OpenAt(s, n, i);
      }
      NextSummarises(s, n, st);
      MatchFromCorrect(s, n + 1, Next(st, s[n]));
    }
  }

  /** The scanner decides the regular expression: `Matches(s)` holds exactly
      when some substring of `s` matches `第.+条`. */
  lemma MatchesIsHasMark(s: string)
    ensures Matches(s) <==> HasMark(s)
  {
    MatchFromCorrect(s, 0, Idle);
  }

  /** A line without `第` has no article mark. */
  lemma NoDiNoMatch(s: string)
    requires Di !in s
    ensures !Matches(s)
  {
    MatchesIsHasMark(s);
    forall i, j ensures !MarkSpan(s, i, j) {
      assert 0 <= i < |s| ==> s[i] in s;
    }
  }
}

=== FILE: content_list.dfy ===
/** The two pure pieces of the clause list: which clauses and sections stay
    visible for a search text, and how `HightedText` cuts a clause into
    plain runs and emphasised occurrences of the search text. */
module ContentList {
  import opened Text
  import opened LawModel

  // ---------------------------------------------------------------------
  // Search filter
  // ---------------------------------------------------------------------

  /** `searchText.isEmpty || clause.contains(searchText)`. */
  predicate Shows(query: string, clause: string)
  {
    |query| == 0 || IndexOf(clause, query).Some?
  }

  /** The filter predicate of the list for `query`. */
  function ShowsFor(query: string): string -> bool
  {
    c => Shows(query, c)
  }

  /** The clauses of a section the list keeps for `query`. */
  function VisibleClauses(clauses: seq<string>, query: string): seq<string>
  {
    Keep(clauses, ShowsFor(query))
  }

  /** Holds of the clauses that contain `query` as a substring. */
  ghost function HasQuery(query: string): string -> bool
  {
    c => Contains(c, query)
  }

  /** With an empty query every clause is visible; otherwise the visible
      clauses are exactly those containing the query, in their original
      order. */
  lemma VisibleClausesSpec(clauses: seq<string>, query: string)
    ensures |query| == 0 ==> VisibleClauses(clauses, query) == clauses
    ensures |query| > 0 ==>
      exists idx :: IsSelection(VisibleClauses(clauses, query), clauses, HasQuery(query), idx)
  {
    var p := ShowsFor(query);
    if |query| == 0 {
      KeepAll(clauses, p);
    } else {
      KeepIsSelection(clauses, p);
      var idx :| IsSelection(Keep(clauses, p), clauses, p, idx);
      assert IsSelection(VisibleClauses(clauses, query), clauses, HasQuery(query), idx);
    }
  }

  /** A section stays in the list when some clause of it is visible. */
  predicate Listed(query: string, sec: Section)
  {
    |VisibleClauses(sec.clauses, query)| > 0
  }

  function ListedFor(query: string): Section -> bool
  {
    s => Listed(query, s)
  }

  /** A section as the list draws it: its title and its visible clauses. */
  function Shown(sec: Section, query: string): Section
  {
    Section(sec.title, VisibleClauses(sec.clauses, query))
  }

  /** The sections the list shows for `query`, each cut down to its visible
      clauses. */
  function Listing(body: seq<Section>, query: string): seq<Section>
  {
    var listed := Keep(body, ListedFor(query));
    seq(|listed|, i requires 0 <= i < |listed| => Shown(listed[i], query))
  }

  /** The listing shows, in order, exactly the sections with at least one
      visible clause, under their own titles and with their visible clauses;
      no listed section is empty. */
  lemma ListingSpec(body: seq<Section>, query: string)
    ensures forall k :: 0 <= k < |Listing(body, query)| ==> |Listing(body, query)[k].clauses| > 0
    ensures exists idx ::
      && IsSelection(Keep(body, ListedFor(query)), body, ListedFor(query), idx)
      && |idx| == |Listing(body, query)|
      && forall k :: 0 <= k < |idx| ==> Listing(body, query)[k] == Shown(body[idx[k]], query)
  {
    var listed := Keep(body, ListedFor(query));
    KeepIsSelection(body, ListedFor(query));
    var idx :| IsSelection(listed, body, ListedFor(query), idx);
    var r := Listing(body, query);
    forall k | 0 <= k < |r|
      ensures |r[k].clauses| > 0
    {
      assert r[k] == Shown(listed[k], query);
      assert ListedFor(query)(listed[k]);
    }
    forall k | 0 <= k < |idx|
      ensures r[k] == Shown(body[idx[k]], query)
    {
      assert listed[k] == body[idx[k]];
    }
  }

  /** A section with at least one clause. */
  predicate HasClauses(sec: Section)
  {
    |sec.clauses| > 0
  }

  /** With an empty query the list shows every section that has a clause,
      unchanged and in order, and hides the empty ones. */
  lemma EmptyQueryListsNonEmptySections(body: seq<Section>)
    ensures exists idx :: IsSelection(Listing(body, ""), body, HasClauses, idx)
  {
    var p := ListedFor("");
    var shown := Keep(body, p);
    forall i | 0 <= i < |body|
      ensures p(body[i]) <==> HasClauses(body[i])
    {
      VisibleClausesSpec(body[i].clauses, "");
    }
    forall k | 0 <= k < |shown|
      ensures Shown(shown[k], "") == shown[k]
    {
      VisibleClausesSpec(shown[k].clauses, "");
    }
    assert Listing(body, "") == shown;
    KeepIsSelection(body, p);
    var idx :| IsSelection(shown, body, p, idx);
    assert IsSelection(shown, body, HasClauses, idx);
  }

  // ---------------------------------------------------------------------
  // HightedText
  // ---------------------------------------------------------------------

  /** A run of clause text, drawn plain or emphasised. */
  datatype Span = Plain(text: string) | Bold(text: string)

  /** The text the spans draw, left to right. */
  function Render(spans: seq<Span>): string
    decreases |spans|
  {
    if |spans| == 0 then "" else spans[0].text + Render(spans[1..])
  }

  /** `parts[0]`, query, `parts[1]`, query, ..., `parts[n - 1]`. */
  function Interleave(parts: seq<string>, query: string): seq<Span>
    decreases |parts|
  {
    if |parts| == 0 then []
    else if |parts| == 1 then [Plain(parts[0])]
    else [Plain(parts[0]), Bold(query)] + Interleave(parts[1..], query)
  }

  /** `HightedText(str:searched:)`: an empty clause or an empty query is
      drawn as one plain run; otherwise the clause is cut at every
      occurrence of the query and the pieces are interleaved with emphasised
      copies of the query. */
  function Highlight(str: string, query: string): seq<Span>
  {
    if |str| == 0 || |query| == 0 then [Plain(str)]
    else Interleave(Components(str, query), query)
  }

  /** Interleaving parts with the query draws the parts joined by it; the
      spans alternate plain, emphasised, plain, ..., and every emphasised
      span is the query. */
  lemma InterleaveShape(parts: seq<string>, query: string)
    requires |parts| > 0
    ensures var spans := Interleave(parts, query);
      && Render(spans) == Join(parts, query)
      && |spans| == 2 * |parts| - 1
      && (forall k :: 0 <= k < |spans| ==> (spans[k].Bold? <==> k % 2 == 1))
      && (forall k :: 0 <= k < |spans| && spans[k].Bold? ==> spans[k].text == query)
      && (forall k :: 0 <= k < |spans| && spans[k].Plain? ==> spans[k].text == parts[k / 2])
  {
    InterleaveRender(parts, query);
    InterleaveLayout(parts, query);
  }

  lemma {:induction false} InterleaveRender(parts: seq<string>, query: string)
    requires |parts| > 0
    ensures Render(Interleave(parts, query)) == Join(parts, query)
    decreases |parts|
  {
    if |parts| > 1 {
      InterleaveRender(parts[1..], query);
      var spans := Interleave(parts, query);
      var rest := Interleave(parts[1..], query);
      assert spans == [Plain(parts[0]), Bold(query)] + rest;
      assert spans[1..] == [Bold(query)] + rest;
      assert spans[1..][1..] == rest;
    } else {
      assert Render(Interleave(parts, query)) == parts[0] + Render([]);
    }
  }

  /** Span `k` is the query when `k` is odd and part `k / 2` otherwise. */
  lemma {:induction false} InterleaveLayout(parts: seq<string>, query: string)
    requires |parts| > 0
    ensures |Interleave(parts, query)| == 2 * |parts| - 1
    ensures forall k :: 0 <= k < |Interleave(parts, query)| ==>
      Interleave(parts, query)[k] == (if k % 2 == 1 then Bold(query) else Plain(parts[k / 2]))
    decreases |parts|
  {
    if |parts| > 1 {
      InterleaveLayout(parts[1..], query);
      var spans := Interleave(parts, query);
      var rest := Interleave(parts[1..], query);
      assert spans == [Plain(parts[0]), Bold(query)] + rest;
      forall k | 2 <= k < |spans|
        ensures spans[k] == (if k % 2 == 1 then Bold(query) else Plain(parts[k / 2]))
      {
        assert spans[k] == rest[k - 2];
        assert (k - 2) % 2 == k % 2 && (k - 2) / 2 == k / 2 - 1;
      }
    }
  }

  /** The spans draw exactly the clause; every emphasised span is the query,
      and when the query is not empty no plain span contains it, so every
      occurrence the cut found is emphasised. Each emphasised copy is the
      leftmost occurrence after the previous one: no occurrence starts
      inside the plain span before it. */
  // Not inductive; `{:induction false}` keeps the solver from trying induction.
  lemma {:induction false} HighlightRoundTrip(str: string, query: string)
    ensures var spans := Highlight(str, query);
      && Render(spans) == str
      && (forall k :: 0 <= k < |spans| && spans[k].Bold? ==> spans[k].text == query)
      && (|query| > 0 ==> forall k :: 0 <= k < |spans| && spans[k].Plain? ==> !Contains(spans[k].text, query))
      && (forall k, j :: 0 <= k < |spans| - 1 && spans[k].Plain? && 0 <= j < |spans[k].text| ==>
            !OccursAt(spans[k].text + query, query, j))
  {
    var spans := Highlight(str, query);
    if |str| == 0 || |query| == 0 {
      assert Render(spans) == str + Render([]);
      if |query| > 0 {
        assert !Contains(str, query) by {
          forall i ensures !OccursAt(str, query, i) {
          }
        }
      }
    } else {
      var parts := Components(str, query);
      InterleaveShape(parts, query);
      JoinComponents(str, query);
      ComponentsAvoidSeparator(str, query);
      ComponentsCutLeftmost(str, query);
      forall k, j | 0 <= k < |spans| - 1 && spans[k].Plain? && 0 <= j < |spans[k].text|
        ensures !OccursAt(spans[k].text + query, query, j)
      {
        assert spans[k].text == parts[k / 2] && k / 2 < |parts| - 1;
      }
    }
  }
}

=== FILE: law_model.dfy ===
/** The law-text parser of `LawModel.init`: a document's text becomes a
    title, a list of preamble entries (`Desc`) and a list of sections
    (`Body`), each section holding its clauses. The parse is a fold of
    `Step` over the working lines; the three places where the app would
    crash on malformed input become `ParseError`s. */
module LawModel {
  import opened Wrappers
  import opened Text
  import ArticleMark

  /** A preamble entry: the text before the first space of a preamble line
      and the text after it (empty when the line has no space). */
  datatype Info = Info(header: string, content: string)

  /** `TextContent` in the app: a heading's title (`text`) and the clauses
      gathered under it (`children`). */
  datatype Section = Section(title: string, clauses: seq<string>)

  /** The published fields `Name`, `Desc` and `Body` of the model. */
  datatype Law = Law(name: string, desc: seq<Info>, body: seq<Section>)

  /** The `isDesc` flag: `Preamble` until the sentinel line, `Body` after. */
  datatype Mode = Preamble | Body

  datatype Parser = Parser(mode: Mode, law: Law)

  /** The three inputs on which the app indexes out of range. Each carries
      the position of the offending line among the working lines. */
  datatype ParseError =
    | MissingTitle(line: nat)         // line 0 has no space: `out[1]`
    | HeadingWithoutTitle(line: nat)  // a `#` heading with no space: `out[1]`
    | ClauseBeforeSection(line: nat)  // a clause line before any heading: `Body[count - 1]`

  /** The sentinel line that ends the preamble. */
  const InfoEnd: string := "<!-- INFO END -->"

  /** What continuation lines are glued onto the previous clause with. */
  const ContinuationGlue: string := "\n    "

  const Start: Parser := Parser(Preamble, Law("", [], []))

  /** Preprocessing: split on `"\n"`, trim `' '` and `'\n'` from both ends
      of every line, and drop lines that end up empty. */
  function WorkingLines(contents: string): seq<string>
  {
    Keep(TrimmedLines(contents), NonEmpty)
  }

  /** The source lines, cut at every `'\n'` and trimmed, empty ones kept:
      one line per piece of the text, in order, each the piece with its
      leading and trailing trim characters removed. */
  function TrimmedLines(contents: string): (r: seq<string>)
    ensures |r| == |Components(contents, "\n")|
    ensures forall i :: 0 <= i < |r| ==> TrimsTo(Components(contents, "\n")[i], r[i])
  {
    var raw := Components(contents, "\n");
    seq(|raw|, i requires 0 <= i < |raw| => Trim(raw[i]))
  }

  predicate NonEmpty(line: string)
  {
    |line| > 0
  }

  /** The first token of a body line starts with `#`. */
  predicate IsHeadingToken(token: string)
  {
    |token| > 0 && token[0] == '#'
  }

  /** A non-heading body line joins the last section: as a new clause when
      the section has none yet or the line contains an article mark, and
      otherwise glued onto the section's last clause. */
  function AddClauseLine(sec: Section, line: string): (r: Section)
    ensures r.title == sec.title
    ensures |r.clauses| > 0
  {
    if |sec.clauses| == 0 || ArticleMark.Matches(line) then
      sec.(clauses := sec.clauses + [line])
    else
      var n := |sec.clauses|;
      sec.(clauses := sec.clauses[..n - 1] + [sec.clauses[n - 1] + ContinuationGlue + line])
  }

  /** One iteration of the loop over the working lines; `index` is the
      line's position among them. */
  function Step(p: Parser, index: nat, text: string): Result<Parser, ParseError>
  {
    if |text| == 0 then Ok(p)
    else
      var out := SplitOnce(text);
      if |out| == 0 then Ok(p)
      else if index == 0 then
        if |out| < 2 then Err(MissingTitle(index))
        else Ok(p.(law := p.law.(name := out[1])))
      else if text == InfoEnd then Ok(p.(mode := Body))
      else if p.mode == Preamble then
        var info := Info(out[0], if |out| > 1 then out[1] else "");
        Ok(p.(law := p.law.(desc := p.law.desc + [info])))
      else if IsHeadingToken(out[0]) then
        if |out| < 2 then Err(HeadingWithoutTitle(index))
        else Ok(p.(law := p.law.(body := p.law.body + [Section(out[1], [])])))
      else if |p.law.body| == 0 then Err(ClauseBeforeSection(index))
      else
        var body := p.law.body;
        var last := |body| - 1;
        Ok(p.(law := p.law.(body := body[..last] + [AddClauseLine(body[last], text)])))
  }

  /** The loop over `lines`, stopping at the first error. */
  function Run(lines: seq<string>): Result<Parser, ParseError>
    decreases |lines|
  {
    if |lines| == 0 then Ok(Start)
    else
      var p :- Run(lines[..|lines| - 1]);
      Step(p, |lines| - 1, lines[|lines| - 1])
  }

  /** The whole parse of a document's text. */
  function Parse(contents: string): Result<Law, ParseError>
  {
    var p :- Run(WorkingLines(contents));
    Ok(p.law)
  }

  /** An error stops the loop: a run that failed on a prefix fails on the
      whole sequence with the same error. */
  lemma {:induction false} ErrorStops(lines: seq<string>, m: nat)
    requires m <= |lines| && Run(lines[..m]).Err?
    ensures Run(lines) == Run(lines[..m])
    decreases |lines|
  {
    if m < |lines| {
      var init := lines[..|lines| - 1];
      assert init[..m] == lines[..m];
      ErrorStops(init, m);
    } else {
      assert lines[..m] == lines;
    }
  }

  /** One more line is one more `Step`. */
  lemma RunSnoc(lines: seq<string>, i: nat)
    requires i < |lines| && Run(lines[..i]).Ok?
    ensures Run(lines[..i + 1]) == Step(Run(lines[..i]).value, i, lines[i])
  {
    assert lines[..i + 1][..i] == lines[..i];
  }

  /** The body of the loop of `LawModel.init` for one line, written with
      the app's variables `isDesc`, `Name`, `Desc` and `Body`; it does
      exactly what `Step` does. */
  method ApplyLine(p: Parser, index: nat, text: string) returns (r: Result<Parser, ParseError>)
    ensures r == Step(p, index, text)
  {
    var isDesc := p.mode == Preamble;
    var name := p.law.name;
    var desc := p.law.desc;
    var body := p.law.body;
    if |text| == 0 {
      return Ok(p);
    }
    var out := SplitOnce(text);
    if |out| == 0 {
      return Ok(p);
    }
    if index == 0 {
      if |out| < 2 {
        return Err(MissingTitle(index));
      }
      name := out[1];
    } else if text == InfoEnd {
      isDesc := false;
    } else if isDesc {
      var info := Info(out[0], "");
      if |out| > 1 {
        info := info.(content := out[1]);
      }
      desc := desc + [info];
    } else if IsHeadingToken(out[0]) {
      if |out| < 2 {
        return Err(HeadingWithoutTitle(index));
      }
      body := body + [Section(out[1], [])];
    } else {
      if |body| == 0 {
        return Err(ClauseBeforeSection(index));
      }
      var last := |body| - 1;
      var lastChildren := body[last].clauses;
      var result := ArticleMark.Matches(text);
      if |lastChildren| == 0 || result {
        body := body[last := body[last].(clauses := lastChildren + [text])];
      } else {
        var len := |lastChildren|;
        var glued := lastChildren[len - 1] + ContinuationGlue;
        glued := glued + text;
        body := body[last := body[last].(clauses := lastChildren[len - 1 := glued])];
        assert body[last].clauses == lastChildren[..len - 1] + [glued];
      }
      assert body == p.law.body[..last] + [AddClauseLine(p.law.body[last], text)];
    }
    r := Ok(Parser(if isDesc then Preamble else Body, Law(name, desc, body)));
  }

  /** The loop of `LawModel.init` over the working lines: it stops at the
      first malformed line and otherwise computes exactly the fold `Run`. */
  method RunLines(lines: seq<string>) returns (r: Result<Parser, ParseError>)
    ensures r == Run(lines)
  {
    var p := Start;
    var index := 0;
    while index < |lines|
      invariant index <= |lines|
      invariant Run(lines[..index]) == Ok(p)
    {
      var next := ApplyLine(p, index, lines[index]);
      RunSnoc(lines, index);
      if next.Err? {
        ErrorStops(lines, index + 1);
        assert lines[..|lines|] == lines;
        return next;
      }
      p := next.value;
      index := index + 1;
    }
    assert lines[..|lines|] == lines;
    r := Ok(p);
  }

  /** `LawModel.init` on a document's text: preprocess, then run the loop. */
  method ParseLaw(contents: string) returns (r: Result<Law, ParseError>)
    ensures r == Parse(contents)
  {
    var run := RunLines(WorkingLines(contents));
    if run.Err? {
      return Err(run.error);
    }
    r := Ok(run.value.law);
  }
}

=== FILE: law_properties.dfy ===
/** What the law-text parser promises about a whole document and about each
    kind of line, stated without reference to how `Step` computes it. */
module LawProperties {
  import opened Wrappers
  import opened Text
  import ArticleMark
  import opened LawModel

  // ---------------------------------------------------------------------
  // The working line stream
  // ---------------------------------------------------------------------

  /** A line as the parse loop sees it: non-empty, no `' '` or `'\n'` at
      either end. */
  predicate IsWorkingLine(line: string)
  {
    |line| > 0 && IsTrimmed(line)
  }

  predicate AllWorking(lines: seq<string>)
  {
    forall k :: 0 <= k < |lines| ==> IsWorkingLine(lines[k])
  }

  /** A character absent from `s` is absent from every infix of `s`. */
  lemma AbsentFromInfix(pre: string, r: string, post: string, c: char)
    requires c !in pre + r + post
    ensures c !in r
  {
    forall k | 0 <= k < |r|
      ensures r[k] != c
    {
      assert (pre + r + post)[|pre| + k] == r[k];
    }
  }

  /** A string that does not contain `[c]` as a substring lacks `c`. */
  lemma NoCharWithoutSubstring(s: string, c: char)
    requires !Contains(s, [c])
    ensures c !in s
  {
    forall k | 0 <= k < |s|
      ensures s[k] != c
    {
      assert s[k..k + 1] == [s[k]];
      assert !OccursAt(s, [c], k);
    }
  }

  /** Every working line is non-empty, trimmed and free of `'\n'`, so the
      `isEmpty` skips of the loop never fire. */
  lemma WorkingLinesWellFormed(contents: string)
    ensures AllWorking(WorkingLines(contents))
    ensures forall k :: 0 <= k < |WorkingLines(contents)| ==> '\n' !in WorkingLines(contents)[k]
    ensures forall k :: 0 <= k < |WorkingLines(contents)| ==> |SplitOnce(WorkingLines(contents)[k])| > 0
  {
    var raw := Components(contents, "\n");
    var trimmed := TrimmedLines(contents);
    var lines := WorkingLines(contents);
    assert lines == Keep(trimmed, NonEmpty);
    KeepIsSelection(trimmed, NonEmpty);
    var idx :| IsSelection(lines, trimmed, NonEmpty, idx);
    ComponentsAvoidSeparator(contents, "\n");
    forall k | 0 <= k < |lines|
      ensures IsWorkingLine(lines[k]) && '\n' !in lines[k] && |SplitOnce(lines[k])| > 0
    {
      var i := idx[k];
      assert lines[k] == Trim(raw[i]);
      NoCharWithoutSubstring(raw[i], '\n');
      var pre, post :| raw[i] == pre + lines[k] + post && AllTrimChars(pre) && AllTrimChars(post);
      AbsentFromInfix(pre, lines[k], post, '\n');
      SplitTrimmedLine(lines[k]);
    }
  }

  /** The working lines are the trimmed source lines, in source order, with
      exactly the empty ones left out; and the source lines are the text cut
      at every `'\n'`. */
  // Not inductive; `{:induction false}` keeps the solver from trying induction.
  lemma {:induction false} WorkingLinesInOrder(contents: string)
    ensures Join(Components(contents, "\n"), "\n") == contents
    ensures exists idx :: IsSelection(WorkingLines(contents), TrimmedLines(contents), NonEmpty, idx)
  {
    JoinComponents(contents, "\n");
    KeepIsSelection(TrimmedLines(contents), NonEmpty);
    assert WorkingLines(contents) == Keep(TrimmedLines(contents), NonEmpty);
  }

  // ---------------------------------------------------------------------
  // Line shapes
  // ---------------------------------------------------------------------

  /** `head` is the first token of `line` and `rest` what follows the first
      space (empty when there is none). */
  ghost predicate FirstToken(line: string, head: string, rest: string)
  {
    && |head| > 0 && ' ' !in head
    && ((line == head && rest == "") || line == head + " " + rest)
  }

  /** A preamble entry records the line it came from. */
  ghost predicate Describes(info: Info, line: string)
  {
    FirstToken(line, info.header, info.content)
  }

  /** `name` is the text after the first space of the title line. */
  ghost predicate TitleOf(line: string, name: string)
  {
    exists head :: |head| > 0 && ' ' !in head && line == head + " " + name
  }

  /** Position of the first sentinel after the title line; the length of
      `lines` when there is none. */
  function PreambleEnd(lines: seq<string>): (e: nat)
    ensures e <= |lines|
    ensures |lines| > 0 ==> e >= 1
    ensures e < |lines| ==> lines[e] == InfoEnd
    ensures forall i :: 1 <= i < e ==> lines[i] != InfoEnd
    decreases |lines|
  {
    if |lines| <= 1 then |lines|
    else
      var n := |lines| - 1;
      var e0 := PreambleEnd(lines[..n]);
      assert forall i :: 1 <= i < e0 ==> lines[i] == lines[..n][i];
      if e0 < n then e0
      else if lines[n] == InfoEnd then n
      else n + 1
  }

  /** A successful run on `lines` is a successful run on all but the last
      line, then one successful `Step`. */
  lemma RunOk(lines: seq<string>)
    requires |lines| > 0 && Run(lines).Ok?
    ensures Run(lines[..|lines| - 1]).Ok?
    ensures Run(lines) == Step(Run(lines[..|lines| - 1]).value, |lines| - 1, lines[|lines| - 1])
  {
  }

  /** Past the title line, a step never touches the name. */
  lemma StepKeepsName(p: Parser, index: nat, line: string)
    requires index > 0 && Step(p, index, line).Ok?
    ensures Step(p, index, line).value.law.name == p.law.name
  {
  }

  // ---------------------------------------------------------------------
  // Whole-document properties
  // ---------------------------------------------------------------------

  /** A title line without a space stops the parse with `MissingTitle(0)`. */
  lemma TitleWithoutSpaceFails(lines: seq<string>)
    requires AllWorking(lines) && |lines| > 0 && ' ' !in lines[0]
    ensures Run(lines) == Err(MissingTitle(0))
  {
    SplitTrimmedLine(lines[0]);
    assert lines[..1][..0] == [];
    ErrorStops(lines, 1);
  }

  /** After a successful parse, `name` is the text after the first space of
      line 0, whatever the later lines say. */
  lemma {:induction false} NameIsTitle(lines: seq<string>)
    requires AllWorking(lines) && |lines| > 0 && Run(lines).Ok?
    ensures TitleOf(lines[0], Run(lines).value.law.name)
    decreases |lines|
  {
    var n := |lines| - 1;
    var init := lines[..n];
    RunOk(lines);
    if n == 0 {
      SplitTrimmedLine(lines[0]);
      var out := SplitOnce(lines[0]);
      assert Run(lines).value.law.name == out[1];
      assert lines[0] == out[0] + " " + out[1];
    } else {
      assert AllWorking(init) && init[0] == lines[0];
      NameIsTitle(init);
      StepKeepsName(Run(init).value, n, lines[n]);
    }
  }

  /** Conversely, a title line made of a word, a space and a non-empty
      rest names the law with that rest. */
  lemma TitleLineNames(p: Parser, head: string, name: string)
    requires |head| > 0 && ' ' !in head && |name| > 0
    ensures Step(p, 0, head + " " + name) == Ok(p.(law := p.law.(name := name)))
  {
    SplitOnceAt(head, name);
  }

  /** Line 0 of the working lines, whatever it says (the sentinel
      included), only ever sets the name: with a space it names the law
      with the text after the first space and leaves mode, preamble and
      sections alone; without one it is `MissingTitle(0)`. */
  // Not inductive; `{:induction false}` keeps the solver from trying induction.
  lemma {:induction false} FirstLineOnlyNames(p: Parser, line: string)
    requires IsWorkingLine(line)
    ensures ' ' !in line ==> Step(p, 0, line) == Err(MissingTitle(0))
    ensures ' ' in line ==>
      && Step(p, 0, line).Ok?
      && var q := Step(p, 0, line).value;
      && q.mode == p.mode && q.law.desc == p.law.desc && q.law.body == p.law.body
      && TitleOf(line, q.law.name)
  {
    SplitTrimmedLine(line);
    if ' ' in line {
      var out := SplitOnce(line);
      assert line == out[0] + " " + out[1];
    }
  }

  /** After a successful parse, the preamble entries describe exactly the
      lines strictly between the title line and the first sentinel, one
      entry per line in source order; the mode is `Body` exactly when a
      sentinel has been seen. */
  lemma {:induction false} DescIsPreamble(lines: seq<string>)
    requires AllWorking(lines) && Run(lines).Ok?
    ensures DescMatches(lines, Run(lines).value)
    decreases |lines|
  {
    if |lines| > 0 {
      var n := |lines| - 1;
      var init := lines[..n];
      RunOk(lines);
      if n == 0 {
        SplitTrimmedLine(lines[0]);
      } else {
        assert AllWorking(init);
        DescIsPreamble(init);
        DescMatchesSnoc(lines, Run(init).value);
      }
    }
  }

  /** The preamble entries of `p` describe exactly the lines strictly
      between the title line and the first sentinel, in order, and `p` is
      in `Body` mode exactly when a sentinel has been seen. */
  ghost predicate DescMatches(lines: seq<string>, p: Parser)
  {
    var e := PreambleEnd(lines);
    && |p.law.desc| == (if e == 0 then 0 else e - 1)
    && (forall k :: 0 <= k < |p.law.desc| ==> Describes(p.law.desc[k], lines[k + 1]))
    && (p.mode == Body <==> e < |lines|)
  }

  /** The induction step of `DescIsPreamble`: one more successful step
      keeps the preamble entries matched to the lines. */
  lemma DescMatchesSnoc(lines: seq<string>, p: Parser)
    requires |lines| > 1 && AllWorking(lines)
    requires DescMatches(lines[..|lines| - 1], p)
    requires Step(p, |lines| - 1, lines[|lines| - 1]).Ok?
    ensures DescMatches(lines, Step(p, |lines| - 1, lines[|lines| - 1]).value)
  {
    var n := |lines| - 1;
    StepDesc(p, n, lines[n]);
    DescMatchesExtend(lines, p, Step(p, n, lines[n]).value);
  }

  /** `DescMatches` carried over one more line, given what `StepDesc` says
      the step did. */
  lemma DescMatchesExtend(lines: seq<string>, p: Parser, q: Parser)
    requires |lines| > 1
    requires DescMatches(lines[..|lines| - 1], p)
    requires var line := lines[|lines| - 1];
      && (p.mode == Body || line == InfoEnd ==> q.law.desc == p.law.desc && q.mode == Body)
      && (p.mode == Preamble && line != InfoEnd ==>
            && q.mode == Preamble
            && q.law.name == p.law.name
            && q.law.body == p.law.body
            && |q.law.desc| == |p.law.desc| + 1
            && q.law.desc[..|p.law.desc|] == p.law.desc
            && Describes(q.law.desc[|p.law.desc|], line))
    ensures DescMatches(lines, q)
  {
    var n := |lines| - 1;
    var init := lines[..n];
    assert forall k :: 0 <= k < n ==> init[k] == lines[k];
    if p.mode == Preamble && lines[n] != InfoEnd {
      forall k | 0 <= k < |q.law.desc|
        ensures Describes(q.law.desc[k], lines[k + 1])
      {
        if k < |p.law.desc| {
          assert q.law.desc[k] == q.law.desc[..|p.law.desc|][k];
        }
      }
    }
  }

  /** Past the title line, a successful step on a working line appends one
      preamble entry describing it while in `Preamble` mode and the line is
      not the sentinel, and changes nothing else; otherwise the entries stay
      as they were. The mode becomes `Body` at the sentinel and never goes
      back. */
  lemma StepDesc(p: Parser, index: nat, line: string)
    requires index > 0 && IsWorkingLine(line) && Step(p, index, line).Ok?
    ensures var q := Step(p, index, line).value;
      && (p.mode == Body || line == InfoEnd ==> q.law.desc == p.law.desc && q.mode == Body)
      && (p.mode == Preamble && line != InfoEnd ==>
            && q.mode == Preamble
            && q.law.name == p.law.name
            && q.law.body == p.law.body
            && |q.law.desc| == |p.law.desc| + 1
            && q.law.desc[..|p.law.desc|] == p.law.desc
            && Describes(q.law.desc[|p.law.desc|], line))
  {
    SplitTrimmedLine(line);
    var q := Step(p, index, line).value;
    if p.mode == Preamble && line != InfoEnd {
      var out := SplitOnce(line);
      assert q.law.desc == p.law.desc + [Info(out[0], if |out| > 1 then out[1] else "")];
      assert q.law.desc[..|p.law.desc|] == p.law.desc;
    }
  }

  /** Past the title line, every working line before the sentinel is
      accepted, a header-only line included: its entry has empty content. */
  lemma PreambleLineAccepted(p: Parser, index: nat, line: string)
    requires index > 0 && p.mode == Preamble && IsWorkingLine(line) && line != InfoEnd
    ensures Step(p, index, line).Ok?
    ensures ' ' !in line ==> Step(p, index, line).value.law.desc == p.law.desc + [Info(line, "")]
  {
    SplitTrimmedLine(line);
  }

  /** A step that ends in `Preamble` mode started there and left the
      sections alone, whatever the line. */
  lemma PreambleStepKeepsBody(p: Parser, index: nat, line: string)
    requires Step(p, index, line).Ok? && Step(p, index, line).value.mode == Preamble
    ensures p.mode == Preamble && Step(p, index, line).value.law.body == p.law.body
  {
  }

  /** No section exists before the sentinel: while a run is still in
      `Preamble` mode, its body is empty. */
  lemma {:induction false} PreambleHasNoSections(lines: seq<string>)
    requires Run(lines).Ok? && Run(lines).value.mode == Preamble
    ensures Run(lines).value.law.body == []
    decreases |lines|
  {
    if |lines| > 0 {
      var n := |lines| - 1;
      var init := lines[..n];
      RunOk(lines);
      PreambleStepKeepsBody(Run(init).value, n, lines[n]);
      PreambleHasNoSections(init);
    }
  }

  /** A sentinel line is consumed: past the title line it only switches the
      mode to `Body`, and changes nothing that is stored. */
  lemma SentinelOnlySwitchesMode(p: Parser, index: nat)
    requires index > 0
    ensures Step(p, index, InfoEnd) == Ok(p.(mode := Body))
  {
    SplitTrimmedLine(InfoEnd);
  }

  /** Once in `Body` mode, no line changes the mode, the name or the
      preamble entries. */
  lemma BodyModeIsFinal(p: Parser, index: nat, line: string)
    requires p.mode == Body && index > 0
    requires Step(p, index, line).Ok?
    ensures var q := Step(p, index, line).value;
      q.mode == Body && q.law.name == p.law.name && q.law.desc == p.law.desc
  {
  }

  // ---------------------------------------------------------------------
  // Body lines
  // ---------------------------------------------------------------------

  /** A heading line (first character `#`) in `Body` mode opens exactly one
      new, empty section titled with the text after its first space, and
      leaves every earlier section alone; without a space it is an error. */
  // Not inductive; `{:induction false}` keeps the solver from trying induction.
  lemma {:induction false} HeadingOpensSection(p: Parser, index: nat, line: string)
    requires index > 0 && p.mode == Body
    requires IsWorkingLine(line) && line != InfoEnd && line[0] == '#'
    ensures ' ' !in line ==> Step(p, index, line) == Err(HeadingWithoutTitle(index))
    ensures ' ' in line ==>
      && Step(p, index, line).Ok?
      && var q := Step(p, index, line).value;
      && q.mode == Body && q.law.name == p.law.name && q.law.desc == p.law.desc
      && |q.law.body| == |p.law.body| + 1
      && q.law.body[..|p.law.body|] == p.law.body
      && q.law.body[|p.law.body|].clauses == []
      && TitleOf(line, q.law.body[|p.law.body|].title)
  {
    SplitTrimmedLine(line);
    var out := SplitOnce(line);
    assert out[0][0] == line[0];
    if ' ' in line {
      assert line == out[0] + " " + out[1];
      var q := Step(p, index, line).value;
      assert q.law.body == p.law.body + [Section(out[1], [])];
      assert q.law.body[..|p.law.body|] == p.law.body;
    }
  }

  /** The number of clauses a non-heading line adds to a section: one when
      the section is empty or the line carries an article mark, else none. */
  ghost function Opens(sec: Section, line: string): nat
  {
    if |sec.clauses| == 0 || ArticleMark.HasMark(line) then 1 else 0
  }

  /** A non-heading body line before any section is an error; otherwise it
      changes only the last section, keeping its title and earlier clauses:
      it becomes a new last clause when the section has no clause yet or the
      line contains `第.+条`, and is glued onto the last clause after a
      newline and four spaces otherwise. */
  lemma ClauseLineJoinsLastSection(p: Parser, index: nat, line: string)
    requires index > 0 && p.mode == Body
    requires IsWorkingLine(line) && line != InfoEnd && line[0] != '#'
    ensures |p.law.body| == 0 ==> Step(p, index, line) == Err(ClauseBeforeSection(index))
    ensures |p.law.body| > 0 ==>
      && Step(p, index, line).Ok?
      && var q := Step(p, index, line).value;
      && var n := |p.law.body|;
      && var before := p.law.body[n - 1].clauses;
      && var now := q.law.body[n - 1].clauses;
      && q.mode == Body && q.law.name == p.law.name && q.law.desc == p.law.desc
      && |q.law.body| == n
      && q.law.body[..n - 1] == p.law.body[..n - 1]
      && q.law.body[n - 1].title == p.law.body[n - 1].title
      && |now| == |before| + Opens(p.law.body[n - 1], line)
      && (Opens(p.law.body[n - 1], line) == 1 ==> now == before + [line])
      && (Opens(p.law.body[n - 1], line) == 0 ==>
            now == before[..|before| - 1] + [before[|before| - 1] + "\n    " + line])
  {
    SplitTrimmedLine(line);
    var out := SplitOnce(line);
    assert out[0][0] == line[0];
    ArticleMark.MatchesIsHasMark(line);
    if |p.law.body| > 0 {
      var n := |p.law.body|;
      var q := Step(p, index, line).value;
      assert q.law.body == p.law.body[..n - 1] + [AddClauseLine(p.law.body[n - 1], line)];
      assert q.law.body[..n - 1] == p.law.body[..n - 1];
    }
  }

  // ---------------------------------------------------------------------
  // Clause grouping loses no text
  // ---------------------------------------------------------------------

  /** Adding a line to a section: its clauses, glued with the continuation
      separator, grow by exactly that line; the clause count grows by
      `Opens`. */
  lemma AddClauseLineKeepsText(sec: Section, line: string)
    ensures var r := AddClauseLine(sec, line);
      && r.title == sec.title
      && |r.clauses| == |sec.clauses| + Opens(sec, line)
      && Join(r.clauses, ContinuationGlue)
         == (if |sec.clauses| == 0 then line else Join(sec.clauses, ContinuationGlue) + ContinuationGlue + line)
  {
    ArticleMark.MatchesIsHasMark(line);
    var cs := sec.clauses;
    var r := AddClauseLine(sec, line);
    if |cs| > 0 {
      if ArticleMark.Matches(line) {
        JoinSnoc(cs, line, ContinuationGlue);
      } else {
        var n := |cs|;
        JoinSnoc(cs[..n - 1], cs[n - 1], ContinuationGlue);
        assert cs[..n - 1] + [cs[n - 1]] == cs;
        JoinReplaceLast(cs, cs[n - 1] + ContinuationGlue + line, ContinuationGlue);
      }
    }
  }

  /** Appending a part adds the separator and the part at the end. */
  lemma {:induction false} JoinSnoc(parts: seq<string>, last: string, sep: string)
    ensures Join(parts + [last], sep) == (if |parts| == 0 then last else Join(parts, sep) + sep + last)
    decreases |parts|
  {
    if |parts| > 1 {
      JoinSnoc(parts[1..], last, sep);
      assert (parts + [last])[1..] == parts[1..] + [last];
    } else if |parts| == 1 {
      assert (parts + [last])[1..] == [last];
    }
  }

  /** Replacing the last part by `x` replaces the tail of the join after the
      last separator. */
  lemma JoinReplaceLast(parts: seq<string>, x: string, sep: string)
    requires |parts| > 0
    ensures var n := |parts|;
      Join(parts[..n - 1] + [x], sep)
        == (if n == 1 then x else Join(parts[..n - 1], sep) + sep + x)
  {
    JoinSnoc(parts[..|parts| - 1], x, sep);
  }

  /** `lines` fed one after another into a section. */
  function Feed(sec: Section, lines: seq<string>): Section
    decreases |lines|
  {
    if |lines| == 0 then sec
    else AddClauseLine(Feed(sec, lines[..|lines| - 1]), lines[|lines| - 1])
  }

  /** The number of lines of `lines` that contain an article mark. */
  ghost function MarkCount(lines: seq<string>): nat
  {
    |set k | 0 <= k < |lines| && ArticleMark.HasMark(lines[k])|
  }

  /** Feeding the lines that follow a heading into its empty section yields
      clauses that, glued with the continuation separator, are exactly those
      lines glued the same way: merging loses and reorders nothing. There
      is one clause for the first line and one more per later line that
      contains an article mark. */
  lemma {:induction false} FeedKeepsText(title: string, lines: seq<string>)
    ensures KeepsText(title, lines, Feed(Section(title, []), lines))
    decreases |lines|
  {
    if |lines| > 0 {
      var n := |lines| - 1;
      var init := lines[..n];
      FeedKeepsText(title, init);
      var before := Feed(Section(title, []), init);
      AddClauseLineKeepsText(before, lines[n]);
      KeepsTextExtend(title, lines, before, AddClauseLine(before, lines[n]));
    } else {
      MarkCountEmpty(lines);
    }
  }

  /** `sec` is titled `title`, its clauses glued with the continuation
      separator are `lines` glued the same way, and it holds one clause for
      the first line plus one per later line with an article mark. */
  ghost predicate KeepsText(title: string, lines: seq<string>, sec: Section)
  {
    && sec.title == title
    && Join(sec.clauses, ContinuationGlue) == Join(lines, ContinuationGlue)
    && |sec.clauses| == (if |lines| == 0 then 0 else 1 + MarkCount(lines[1..]))
  }

  /** The induction step of `FeedKeepsText`, given what
      `AddClauseLineKeepsText` says about adding the last line. */
  lemma KeepsTextExtend(title: string, lines: seq<string>, sec: Section, r: Section)
    requires |lines| > 0
    requires KeepsText(title, lines[..|lines| - 1], sec)
    requires var line := lines[|lines| - 1];
      && r.title == sec.title
      && |r.clauses| == |sec.clauses| + Opens(sec, line)
      && Join(r.clauses, ContinuationGlue)
         == (if |sec.clauses| == 0 then line else Join(sec.clauses, ContinuationGlue) + ContinuationGlue + line)
    ensures KeepsText(title, lines, r)
  {
    var n := |lines| - 1;
    var init := lines[..n];
    JoinSnoc(init, lines[n], ContinuationGlue);
    assert init + [lines[n]] == lines;
    if n > 0 {
      MarkCountSnoc(init[1..], lines[n]);
      assert init[1..] + [lines[n]] == lines[1..];
    } else {
      MarkCountEmpty(lines[1..]);
    }
  }

  lemma MarkCountEmpty(lines: seq<string>)
    requires |lines| == 0
    ensures MarkCount(lines) == 0
  {
    assert (set k | 0 <= k < |lines| && ArticleMark.HasMark(lines[k])) == {};
  }

  lemma MarkCountSnoc(lines: seq<string>, line: string)
    ensures MarkCount(lines + [line]) == MarkCount(lines) + (if ArticleMark.HasMark(line) then 1 else 0)
  {
    var xs := lines + [line];
    var a := set k | 0 <= k < |lines| && ArticleMark.HasMark(lines[k]);
    var b := set k | 0 <= k < |xs| && ArticleMark.HasMark(xs[k]);
    assert forall k :: 0 <= k < |lines| ==> xs[k] == lines[k];
    if ArticleMark.HasMark(line) {
      assert b == a + {|lines|};
    } else {
      assert b == a;
    }
  }

  /** A body line that is neither a sentinel nor a heading. */
  predicate IsClauseLine(line: string)
  {
    IsWorkingLine(line) && line != InfoEnd && line[0] != '#'
  }

  /** Appending one line to a successful run is one more `Step`. */
  lemma RunAppend(lines: seq<string>, line: string)
    requires Run(lines).Ok?
    ensures Run(lines + [line]) == Step(Run(lines).value, |lines|, line)
  {
    var all := lines + [line];
    assert all[..|all| - 1] == lines;
  }

  /** In `Body` mode with a section open, a clause line is added to the last
      section and changes nothing else. */
  lemma ClauseStep(p: Parser, index: nat, line: string, prefix: seq<Section>, last: Section)
    requires index > 0 && p.mode == Body && p.law.body == prefix + [last] && IsClauseLine(line)
    ensures Step(p, index, line) == Ok(p.(law := p.law.(body := prefix + [AddClauseLine(last, line)])))
  {
    SplitTrimmedLine(line);
    assert SplitOnce(line)[0][0] == line[0];
    assert p.law.body[..|prefix|] == prefix;
  }

  /** Once a section is open, clause lines only ever feed the last
      section: the run over the extra lines ends with the last section fed
      those lines and everything else as it was. */
  // Not inductive; `{:induction false}` keeps the solver from trying induction.
  lemma {:induction false} ClauseLinesFeedLastSection(lines: seq<string>, more: seq<string>)
    requires |lines| > 0 && Run(lines).Ok?
    requires Run(lines).value.mode == Body && |Run(lines).value.law.body| > 0
    requires forall k :: 0 <= k < |more| ==> IsClauseLine(more[k])
    ensures var p := Run(lines).value; var n := |p.law.body|;
      Run(lines + more) == Ok(p.(law := p.law.(body := p.law.body[..n - 1] + [Feed(p.law.body[n - 1], more)])))
  {
    var p := Run(lines).value;
    var n := |p.law.body|;
    InitLast(p.law.body);
    ClauseLinesAfterRun(lines, more, p, p.law.body[..n - 1], p.law.body[n - 1]);
  }

  lemma InitLast<T>(s: seq<T>)
    requires |s| > 0
    ensures s == s[..|s| - 1] + [s[|s| - 1]]
  {
  }

  /** The same, for a run known to end in state `q` whose last section is
      `sec`. */
  lemma {:induction false} ClauseLinesAfterRun(init: seq<string>, more: seq<string>, q: Parser, prefix: seq<Section>, sec: Section)
    requires |init| > 0 && Run(init) == Ok(q)
    requires q.mode == Body && q.law.body == prefix + [sec]
    requires forall k :: 0 <= k < |more| ==> IsClauseLine(more[k])
    ensures Run(init + more) == Ok(q.(law := q.law.(body := prefix + [Feed(sec, more)])))
    decreases |more|
  {
    if |more| == 0 {
      assert init + more == init;
    } else {
      var m := |more| - 1;
      ClauseLinesAfterRun(init, more[..m], q, prefix, sec);
      var q' := q.(law := q.law.(body := prefix + [Feed(sec, more[..m])]));
      ClauseLineAfterRun(init + more[..m], more[m], q', prefix, Feed(sec, more[..m]));
      AppendInitLast(init, more);
    }
  }

  /** `lines + more` is `lines`, all of `more` but its last line, then that line. */
  lemma AppendInitLast(lines: seq<string>, more: seq<string>)
    requires |more| > 0
    ensures (lines + more[..|more| - 1]) + [more[|more| - 1]] == lines + more
  {
    assert more == more[..|more| - 1] + [more[|more| - 1]];
  }

  /** A clause line after a run that ended with a section open is added to
      that section. */
  // Not inductive; `{:induction false}` keeps the solver from trying induction.
  lemma {:induction false} ClauseLineAfterRun(init: seq<string>, line: string, q: Parser, prefix: seq<Section>, sec: Section)
    requires |init| > 0 && Run(init) == Ok(q)
    requires q.mode == Body && q.law.body == prefix + [sec] && IsClauseLine(line)
    ensures Run(init + [line]) == Ok(q.(law := q.law.(body := prefix + [AddClauseLine(sec, line)])))
  {
    RunAppend(init, line);
    ClauseStep(q, |init|, line, prefix, sec);
  }

  /** A heading followed by clause lines yields one section, titled with
      the text after the heading's first space, whose clauses glued with
      the continuation separator are exactly those lines glued the same way,
      one clause for the first line and one per later line with an article
      mark; the sections before it are untouched. */
  lemma SectionReproducesItsLines(lines: seq<string>, heading: string, more: seq<string>)
    requires |lines| > 0 && Run(lines).Ok? && Run(lines).value.mode == Body
    requires IsWorkingLine(heading) && heading != InfoEnd && heading[0] == '#' && ' ' in heading
    requires forall k :: 0 <= k < |more| ==> IsClauseLine(more[k])
    ensures Run(lines + [heading] + more).Ok?
    ensures var before := Run(lines).value.law.body;
      var after := Run(lines + [heading] + more).value.law.body;
      && |after| == |before| + 1
      && after[..|before|] == before
      && TitleOf(heading, after[|before|].title)
      && Join(after[|before|].clauses, ContinuationGlue) == Join(more, ContinuationGlue)
      && |after[|before|].clauses| == (if |more| == 0 then 0 else 1 + MarkCount(more[1..]))
  {
    var p := Run(lines).value;
    RunAppend(lines, heading);
    HeadingOpensSection(p, |lines|, heading);
    var q := Run(lines + [heading]).value;
    ClauseLinesFeedLastSection(lines + [heading], more);
    var r := Run(lines + [heading] + more).value;
    NewSectionFed(p.law.body, q.law.body, r.law.body, heading, more);
  }

  /** The bookkeeping of `SectionReproducesItsLines` on the section lists
      alone: `mid` is `before` plus a new empty section titled from
      `heading`, and `after` is `mid` with its last section fed `more`. */
  // Not inductive; `{:induction false}` keeps the solver from trying induction.
  lemma {:induction false} NewSectionFed(before: seq<Section>, mid: seq<Section>, after: seq<Section>, heading: string, more: seq<string>)
    requires |mid| == |before| + 1 && mid[..|before|] == before
    requires mid[|before|].clauses == [] && TitleOf(heading, mid[|before|].title)
    requires after == mid[..|mid| - 1] + [Feed(mid[|mid| - 1], more)]
    ensures && |after| == |before| + 1
      && after[..|before|] == before
      && TitleOf(heading, after[|before|].title)
      && Join(after[|before|].clauses, ContinuationGlue) == Join(more, ContinuationGlue)
      && |after[|before|].clauses| == (if |more| == 0 then 0 else 1 + MarkCount(more[1..]))
  {
    var sec := mid[|before|];
    assert sec == Section(sec.title, []);
    FeedKeepsText(sec.title, more);
    assert after[..|before|] == mid[..|before|];
  }
}

=== FILE: law_samples.dfy ===
/** Small documents worked through the parser line by line: a well-formed
    one, and one for each of the three malformed-input errors. Each line is
    one `Step` lemma, and each prefix of a document one `Run` lemma built on
    the previous one, so that no proof unfolds the whole fold at once. */
module LawSamples {
  import opened Wrappers
  import opened Text
  import ArticleMark
  import opened LawModel
  import opened LawProperties

  // ---------------------------------------------------------------------
  // A well-formed document
  // ---------------------------------------------------------------------

  // Lines of the form "word rest" are written as `word + " " + rest`, so
  // that `SplitOnceAt` applies to them as they stand.
  const TitleLine: string := "TAG" + " " + "My Law Name"
  const DescLine: string := "公布" + " " + "2020"
  const HeadingLine: string := "#" + " " + "Chapter 1"
  const FirstClause: string := "第一条" + " " + "Something"
  const Continued: string := "more"
  const SecondClause: string := "第二条" + " " + "Other"

  /** The working lines of the document, sentinel included. */
  const Document: seq<string> :=
    [TitleLine, DescLine, InfoEnd, HeadingLine, FirstClause, Continued, SecondClause]

  const AfterTitle: Parser := Parser(Preamble, Law("My Law Name", [], []))
  const AfterDesc: Parser := Parser(Preamble, Law("My Law Name", [Info("公布", "2020")], []))
  const AfterSentinel: Parser := Parser(Body, Law("My Law Name", [Info("公布", "2020")], []))
  const AfterHeading: Parser :=
    Parser(Body, Law("My Law Name", [Info("公布", "2020")], [Section("Chapter 1", [])]))
  const AfterFirst: Parser :=
    Parser(Body, Law("My Law Name", [Info("公布", "2020")], [Section("Chapter 1", [FirstClause])]))
  const AfterContinued: Parser :=
    Parser(Body, Law("My Law Name", [Info("公布", "2020")],
                     [Section("Chapter 1", [FirstClause + "\n    " + Continued])]))
  const AfterSecond: Parser :=
    Parser(Body, Law("My Law Name", [Info("公布", "2020")],
                     [Section("Chapter 1", [FirstClause + "\n    " + Continued, SecondClause])]))

  /** Line 0 names the law with the text after its first space. */
  lemma TitleStep()
    ensures Step(Start, 0, TitleLine) == Ok(AfterTitle)
  {
    TitleLineNames(Start, "TAG", "My Law Name");
  }

  /** A preamble line becomes one `Info`, cut at its first space. */
  lemma DescStep()
    ensures Step(AfterTitle, 1, DescLine) == Ok(AfterDesc)
  {
    SplitOnceAt("公布", "2020");
    assert DescLine != InfoEnd;
    assert [] + [Info("公布", "2020")] == [Info("公布", "2020")];
  }

  /** The sentinel only switches to the body. */
  lemma SentinelStep()
    ensures Step(AfterDesc, 2, InfoEnd) == Ok(AfterSentinel)
  {
    SentinelOnlySwitchesMode(AfterDesc, 2);
  }

  /** A `#` line opens an empty section. */
  lemma HeadingStep()
    ensures Step(AfterSentinel, 3, HeadingLine) == Ok(AfterHeading)
  {
    SplitOnceAt("#", "Chapter 1");
    assert HeadingLine != InfoEnd;
    assert IsHeadingToken("#");
    assert [] + [Section("Chapter 1", [])] == [Section("Chapter 1", [])];
  }

  /** The first line of an empty section is its first clause. */
  lemma FirstClauseStep()
    ensures Step(AfterHeading, 4, FirstClause) == Ok(AfterFirst)
  {
    SplitOnceAt("第一条", "Something");
    assert FirstClause != InfoEnd;
    ClauseStep(AfterHeading, 4, FirstClause, [], Section("Chapter 1", []));
    assert AddClauseLine(Section("Chapter 1", []), FirstClause) == Section("Chapter 1", [FirstClause]);
    assert [] + [Section("Chapter 1", [FirstClause])] == [Section("Chapter 1", [FirstClause])];
  }

  /** A line without `第.+条` is glued onto the clause before it. */
  lemma ContinuedStep()
    ensures Step(AfterFirst, 5, Continued) == Ok(AfterContinued)
  {
    ContinuedIsPlain();
    ClauseStep(AfterFirst, 5, Continued, [], Section("Chapter 1", [FirstClause]));
    var glued := Section("Chapter 1", [FirstClause + "\n    " + Continued]);
    assert AddClauseLine(Section("Chapter 1", [FirstClause]), Continued) == glued;
    assert [] + [glued] == [glued];
  }

  /** The continuation line is one word with no article mark. */
  lemma ContinuedIsPlain()
    ensures SplitOnce(Continued) == [Continued]
    ensures !ArticleMark.Matches(Continued)
    ensures IsClauseLine(Continued)
  {
    SplitOnceWord(Continued);
    ArticleMark.NoDiNoMatch(Continued);
    assert Continued != InfoEnd;
  }

  /** A line with `第.+条` starts a new clause. */
  lemma SecondClauseStep()
    ensures Step(AfterContinued, 6, SecondClause) == Ok(AfterSecond)
  {
    ArticleMark.MatchesIsHasMark(SecondClause);
    assert ArticleMark.MarkSpan(SecondClause, 0, 2);
    SplitOnceAt("第二条", "Other");
    assert SecondClause != InfoEnd;
    assert ArticleMark.Matches(SecondClause);
    var before := Section("Chapter 1", [FirstClause + "\n    " + Continued]);
    ClauseStep(AfterContinued, 6, SecondClause, [], before);
    var after := Section("Chapter 1", [FirstClause + "\n    " + Continued, SecondClause]);
    assert AddClauseLine(before, SecondClause) == after;
    assert [] + [after] == [after];
  }

  /** One more element of a prefix is the next prefix. */
  lemma TakeSnoc<T>(s: seq<T>, k: nat)
    requires k < |s|
    ensures s[..k] + [s[k]] == s[..k + 1]
  {
  }

  lemma DocumentPrefix1()
    ensures Run(Document[..1]) == Ok(AfterTitle)
  {
    TitleStep();
    RunAppend([], TitleLine);
    assert [] + [TitleLine] == Document[..1];
  }

  lemma DocumentPrefix2()
    ensures Run(Document[..2]) == Ok(AfterDesc)
  {
    DocumentPrefix1();
    DescStep();
    RunAppend(Document[..1], DescLine);
    TakeSnoc(Document, 1);
  }

  lemma DocumentPrefix3()
    ensures Run(Document[..3]) == Ok(AfterSentinel)
  {
    DocumentPrefix2();
    SentinelStep();
    RunAppend(Document[..2], InfoEnd);
    TakeSnoc(Document, 2);
  }

  lemma DocumentPrefix4()
    ensures Run(Document[..4]) == Ok(AfterHeading)
  {
    DocumentPrefix3();
    HeadingStep();
    RunAppend(Document[..3], HeadingLine);
    TakeSnoc(Document, 3);
  }

  lemma DocumentPrefix5()
    ensures Run(Document[..5]) == Ok(AfterFirst)
  {
    DocumentPrefix4();
    FirstClauseStep();
    RunAppend(Document[..4], FirstClause);
    TakeSnoc(Document, 4);
  }

  lemma DocumentPrefix6()
    ensures Run(Document[..6]) == Ok(AfterContinued)
  {
    DocumentPrefix5();
    ContinuedStep();
    RunAppend(Document[..5], Continued);
    TakeSnoc(Document, 5);
  }

  /** The whole document: title "My Law Name", one preamble entry, one
      section "Chapter 1" with two clauses, the first spread over two lines
      and glued with a newline and four spaces. */
  lemma SampleDocument()
    ensures Run(Document) == Ok(AfterSecond)
  {
    DocumentPrefix6();
    SecondClauseStep();
    RunAppend(Document[..6], SecondClause);
    TakeSnoc(Document, 6);
    assert Document[..7] == Document;
  }

  // ---------------------------------------------------------------------
  // Malformed documents
  // ---------------------------------------------------------------------

  /** A one-word title line is `MissingTitle`, not a crash. */
  lemma SampleMissingTitle()
    ensures Run(["Title", "# Chapter 1"]) == Err(MissingTitle(0))
  {
    TitleWithoutSpaceFails(["Title", "# Chapter 1"]);
  }

  const ShortTitle: string := "TAG" + " " + "Name"
  const NoSections: Parser := Parser(Body, Law("Name", [], []))

  /** A title and the sentinel, with nothing else. */
  lemma TitleAndSentinel()
    ensures Run([ShortTitle, InfoEnd]) == Ok(NoSections)
  {
    TitleLineNames(Start, "TAG", "Name");
    RunAppend([], ShortTitle);
    assert [] + [ShortTitle] == [ShortTitle];
    assert Run([ShortTitle]) == Ok(Parser(Preamble, Law("Name", [], [])));
    SentinelOnlySwitchesMode(Parser(Preamble, Law("Name", [], [])), 1);
    RunAppend([ShortTitle], InfoEnd);
    assert [ShortTitle] + [InfoEnd] == [ShortTitle, InfoEnd];
  }

  /** A non-heading body line with no section open is an error. */
  lemma OrphanClauseStep()
    ensures Step(NoSections, 2, FirstClause) == Err(ClauseBeforeSection(2))
  {
    SplitOnceAt("第一条", "Something");
    assert FirstClause != InfoEnd;
  }

  /** A clause line right after the sentinel, before any heading, is
      `ClauseBeforeSection`, not a crash. */
  lemma SampleClauseBeforeSection()
    ensures Run([ShortTitle, InfoEnd, FirstClause]) == Err(ClauseBeforeSection(2))
  {
    TitleAndSentinel();
    OrphanClauseStep();
    RunAppend([ShortTitle, InfoEnd], FirstClause);
    assert [ShortTitle, InfoEnd] + [FirstClause] == [ShortTitle, InfoEnd, FirstClause];
  }

  const BareHeading: string := "#Chapter"

  /** A `#` line without a space has no title to read. */
  lemma BareHeadingStep()
    ensures Step(NoSections, 2, BareHeading) == Err(HeadingWithoutTitle(2))
  {
    SplitOnceWord(BareHeading);
    assert BareHeading != InfoEnd;
    assert IsHeadingToken(BareHeading);
  }

  /** A heading with no space after its marker is `HeadingWithoutTitle`. */
  lemma SampleHeadingWithoutTitle()
    ensures Run([ShortTitle, InfoEnd, BareHeading]) == Err(HeadingWithoutTitle(2))
  {
    TitleAndSentinel();
    BareHeadingStep();
    RunAppend([ShortTitle, InfoEnd], BareHeading);
    assert [ShortTitle, InfoEnd] + [BareHeading] == [ShortTitle, InfoEnd, BareHeading];
  }
}

=== FILE: text.dfy ===
/** String helpers shared by the law-text parser and the clause list.
    Each models one Swift/Foundation string operation the app relies on:
    substring search (`contains`, `range(of:)`), `components(separatedBy:)`,
    `trimmingCharacters(in:)`, `split(separator:maxSplits:)` and
    `Array.filter`. A `string` is a sequence of Unicode scalar values. */
module Text {
  import opened Wrappers

  // ---------------------------------------------------------------------
  // Substring search
  // ---------------------------------------------------------------------

  /** `pat` occurs in `s` starting at position `i`. */
  predicate OccursAt(s: string, pat: string, i: int)
  {
    0 <= i && i + |pat| <= |s| && s[i..i + |pat|] == pat
  }

  /** `pat` is a substring of `s`. */
  ghost predicate Contains(s: string, pat: string)
  {
    exists i :: OccursAt(s, pat, i)
  }

  /** The leftmost occurrence of `pat` in `s` at or after position `from`. */
  function FindFrom(s: string, pat: string, from: nat): (r: Option<nat>)
    ensures r.Some? ==> from <= r.value && OccursAt(s, pat, r.value)
    ensures forall j :: from <= j && (r.None? || j < r.value) ==> !OccursAt(s, pat, j)
    decreases |s| - from
  {
    if from + |pat| > |s| then None
    else if s[from..from + |pat|] == pat then Some(from)
    else FindFrom(s, pat, from + 1)
  }

  /** The leftmost occurrence of `pat` in `s`; `None` exactly when `pat` is
      not a substring of `s`. */
  function IndexOf(s: string, pat: string): (r: Option<nat>)
    ensures r.Some? <==> Contains(s, pat)
    ensures r.Some? ==> OccursAt(s, pat, r.value)
    ensures r.Some? ==> forall j :: 0 <= j < r.value ==> !OccursAt(s, pat, j)
  {
    FindFrom(s, pat, 0)
  }

  /** An occurrence inside a prefix of `s` is an occurrence in `s`. */
  lemma OccursInPrefix(s: string, pat: string, n: nat, j: int)
    requires n <= |s| && OccursAt(s[..n], pat, j)
    ensures OccursAt(s, pat, j) && j + |pat| <= n
  {
    assert s[..n][j..j + |pat|] == s[j..j + |pat|];
  }

  // ---------------------------------------------------------------------
  // components(separatedBy:) and its inverse
  // ---------------------------------------------------------------------

  /** `parts` glued back together with `sep` between neighbours. */
  function Join(parts: seq<string>, sep: string): string
  {
    if |parts| == 0 then ""
    else if |parts| == 1 then parts[0]
    else parts[0] + sep + Join(parts[1..], sep)
  }

  /** Foundation's `components(separatedBy:)`: cut `s` at every leftmost,
      non-overlapping occurrence of `sep`, left to right. There is always at
      least one part, and `s` with no occurrence is its own single part. */
  function Components(s: string, sep: string): (parts: seq<string>)
    requires |sep| > 0
    ensures |parts| >= 1
    ensures IndexOf(s, sep).None? ==> parts == [s]
    decreases |s|
  {
    match IndexOf(s, sep)
    case None => [s]
    case Some(i) => [s[..i]] + Components(s[i + |sep|..], sep)
  }

  /** Joining a list with a head puts the separator after the head. */
  lemma JoinCons(head: string, rest: seq<string>, sep: string)
    requires |rest| >= 1
    ensures Join([head] + rest, sep) == head + sep + Join(rest, sep)
  {
    assert ([head] + rest)[1..] == rest;
  }

  /** Cutting `s` around an occurrence of `sep` at `i` loses nothing. */
  lemma CutAround(s: string, sep: string, i: nat)
    requires OccursAt(s, sep, i)
    ensures s == s[..i] + sep + s[i + |sep|..]
  {
    assert s == s[..i] + s[i..i + |sep|] + s[i + |sep|..];
  }

  /** Round trip: joining the components with the separator gives back the
      original string. */
  lemma {:induction false} JoinComponents(s: string, sep: string)
    requires |sep| > 0
    ensures Join(Components(s, sep), sep) == s
    decreases |s|
  {
    var found := IndexOf(s, sep);
    if found.Some? {
      var i := found.value;
      var rest := s[i + |sep|..];
      JoinComponents(rest, sep);
      JoinCons(s[..i], Components(rest, sep), sep);
      CutAround(s, sep, i);
    }
  }

  /** No component contains the separator: every occurrence was cut out. */
  lemma {:induction false} ComponentsAvoidSeparator(s: string, sep: string)
    requires |sep| > 0
    ensures forall k :: 0 <= k < |Components(s, sep)| ==> !Contains(Components(s, sep)[k], sep)
    decreases |s|
  {
    match IndexOf(s, sep)
    case None =>
    case Some(i) =>
      var rest := s[i + |sep|..];
      ComponentsAvoidSeparator(rest, sep);
      ComponentsStep(s, sep, i);
      assert !Contains(s[..i], sep) by {
        forall j | OccursAt(s[..i], sep, j)
          ensures false
        {
          OccursInPrefix(s, sep, i, j);
        }
      }
      AvoidCons(s[..i], Components(rest, sep), sep);
  }

  /** One cut of `Components`, at the leftmost occurrence `i`. Not
      inductive; `{:induction false}` keeps the solver from trying induction. */
  lemma {:induction false} ComponentsStep(s: string, sep: string, i: nat)
    requires |sep| > 0 && IndexOf(s, sep) == Some(i)
    ensures Components(s, sep) == [s[..i]] + Components(s[i + |sep|..], sep)
  {
  }

  lemma AvoidCons(head: string, tail: seq<string>, sep: string)
    requires !Contains(head, sep)
    requires forall k :: 0 <= k < |tail| ==> !Contains(tail[k], sep)
    ensures forall k :: 0 <= k < |[head] + tail| ==> !Contains(([head] + tail)[k], sep)
  {
    forall k | 0 <= k < |[head] + tail|
      ensures !Contains(([head] + tail)[k], sep)
    {
      if k > 0 {
        assert ([head] + tail)[k] == tail[k - 1];
      }
    }
  }

  /** A separator that overlaps itself is cut at its first occurrence. */
  lemma OverlappingSeparator()
    ensures Components("aaa", "aa") == ["", "a"]
  {
    assert OccursAt("aaa", "aa", 0);
    assert "aaa"[2..] == "a";
    assert !OccursAt("a", "aa", 0);
  }

  /** Every cut is at the leftmost occurrence left: no occurrence of `sep`
      starts inside a part, not even one that runs on into the separator
      after it. */
  ghost predicate CutsLeftmost(parts: seq<string>, sep: string)
  {
    forall k, j :: 0 <= k < |parts| - 1 && 0 <= j < |parts[k]| ==> !OccursAt(parts[k] + sep, sep, j)
  }

  /** `components(separatedBy:)` cuts at the leftmost occurrence each time,
      so for a separator that overlaps itself (`"aa"` in `"aaa"`) the cut
      is the first one. */
  lemma {:induction false} ComponentsCutLeftmost(s: string, sep: string)
    requires |sep| > 0
    ensures CutsLeftmost(Components(s, sep), sep)
    decreases |s|
  {
    match IndexOf(s, sep)
    case None =>
    case Some(i) =>
      var rest := s[i + |sep|..];
      ComponentsCutLeftmost(rest, sep);
      ComponentsStep(s, sep, i);
      FirstCutLeftmost(s, sep, i);
      CutsLeftmostCons(s[..i], Components(rest, sep), sep);
  }

  /** Before the leftmost occurrence `i`, the piece `s[..i]` followed by the
      separator holds no earlier occurrence. */
  lemma FirstCutLeftmost(s: string, sep: string, i: nat)
    requires IndexOf(s, sep) == Some(i)
    ensures forall j :: 0 <= j < i ==> !OccursAt(s[..i] + sep, sep, j)
  {
    assert s[..i] + sep == s[..i + |sep|];
    forall j | 0 <= j < i
      ensures !OccursAt(s[..i] + sep, sep, j)
    {
      if OccursAt(s[..i] + sep, sep, j) {
        OccursInPrefix(s, sep, i + |sep|, j);
      }
    }
  }

  lemma CutsLeftmostCons(head: string, tail: seq<string>, sep: string)
    requires |tail| > 0
    requires forall j :: 0 <= j < |head| ==> !OccursAt(head + sep, sep, j)
    requires CutsLeftmost(tail, sep)
    ensures CutsLeftmost([head] + tail, sep)
  {
    var parts := [head] + tail;
    forall k, j | 0 <= k < |parts| - 1 && 0 <= j < |parts[k]|
      ensures !OccursAt(parts[k] + sep, sep, j)
    {
      if k > 0 {
        assert parts[k] == tail[k - 1];
      }
    }
  }

  // ---------------------------------------------------------------------
  // Runs of characters at either end, trimming
  // ---------------------------------------------------------------------

  /** Length of the longest prefix of `s` whose characters all satisfy `p`. */
  function LeadingRun(s: string, p: char -> bool): (n: nat)
    ensures n <= |s|
    ensures forall k :: 0 <= k < n ==> p(s[k])
    ensures n < |s| ==> !p(s[n])
    decreases |s|
  {
    if |s| > 0 && p(s[0]) then 1 + LeadingRun(s[1..], p) else 0
  }

  /** Length of the longest suffix of `s` whose characters all satisfy `p`. */
  function TrailingRun(s: string, p: char -> bool): (n: nat)
    ensures n <= |s|
    ensures forall k :: |s| - n <= k < |s| ==> p(s[k])
    ensures n < |s| ==> !p(s[|s| - n - 1])
    decreases |s|
  {
    if |s| > 0 && p(s[|s| - 1]) then 1 + TrailingRun(s[..|s| - 1], p) else 0
  }

  /** The character set `[" ", "\n"]` the parser trims with. */
  predicate IsTrimChar(c: char)
  {
    c == ' ' || c == '\n'
  }

  ghost predicate AllTrimChars(s: string)
  {
    forall k :: 0 <= k < |s| ==> IsTrimChar(s[k])
  }

  /** Neither end of `s` is a trim character. */
  predicate IsTrimmed(s: string)
  {
    |s| == 0 || (!IsTrimChar(s[0]) && !IsTrimChar(s[|s| - 1]))
  }

  /** `r` has no trim character at either end, and `s` is `r` wrapped in
      runs of trim characters. By `TrimUnique`, at most one `r` does this. */
  ghost predicate TrimsTo(s: string, r: string)
  {
    && IsTrimmed(r)
    && exists pre, post {:trigger AllTrimChars(pre), AllTrimChars(post)} ::
         s == pre + r + post && AllTrimChars(pre) && AllTrimChars(post)
  }

  /** `trimmingCharacters(in: [" ", "\n"])`. */
  function Trim(s: string): (r: string)
    ensures TrimsTo(s, r)
  {
    var a := LeadingRun(s, IsTrimChar);
    if a == |s| then
      TrimsAway(s);
      ""
    else
      var b := TrailingRun(s, IsTrimChar);
      assert a < |s| - b;
      TrimsToMiddle(s, a, b);
      s[a..|s| - b]
  }

  /** A text made only of trim characters trims to nothing. */
  lemma TrimsAway(s: string)
    requires LeadingRun(s, IsTrimChar) == |s|
    ensures TrimsTo(s, "")
  {
    assert s == s + "" + "";
    assert AllTrimChars(s) && AllTrimChars("");
  }

  /** Cutting `a` leading and `b` trailing trim characters off a text
      whose next characters inward are not trim characters leaves a
      trimmed middle. */
  lemma TrimsToMiddle(s: string, a: nat, b: nat)
    requires a < |s| - b
    requires forall k :: 0 <= k < a ==> IsTrimChar(s[k])
    requires forall k :: |s| - b <= k < |s| ==> IsTrimChar(s[k])
    requires !IsTrimChar(s[a]) && !IsTrimChar(s[|s| - b - 1])
    ensures TrimsTo(s, s[a..|s| - b])
  {
    var pre, r, post := s[..a], s[a..|s| - b], s[|s| - b..];
    assert r[0] == s[a] && r[|r| - 1] == s[|s| - b - 1];
    ThreeCuts(s, a, |s| - b);
    forall k | 0 <= k < |pre| ensures IsTrimChar(pre[k]) { assert pre[k] == s[k]; }
    forall k | 0 <= k < |post| ensures IsTrimChar(post[k]) { assert post[k] == s[|s| - b + k]; }
    assert AllTrimChars(pre) && AllTrimChars(post);
  }

  /** Cutting a sequence at two points and gluing the three parts back
      gives the sequence. */
  lemma ThreeCuts<T>(s: seq<T>, i: nat, j: nat)
    requires i <= j <= |s|
    ensures s == s[..i] + s[i..j] + s[j..]
  {
  }

  /** `Trim` is the only way to peel trim characters off both ends until
      none is left there: any such decomposition yields `Trim(s)`. */
  lemma TrimUnique(s: string, pre: string, r: string, post: string)
    requires s == pre + r + post
    requires AllTrimChars(pre) && AllTrimChars(post) && IsTrimmed(r)
    ensures Trim(s) == r
  {
    if |r| == 0 {
      assert forall k :: 0 <= k < |s| ==> IsTrimChar(s[k]) by {
        forall k | 0 <= k < |s|
          ensures IsTrimChar(s[k])
        {
          if k < |pre| { assert s[k] == pre[k]; } else { assert s[k] == post[k - |pre|]; }
        }
      }
      assert LeadingRun(s, IsTrimChar) == |s|;
    } else {
      LeadingRunIs(s, pre, r, post);
      TrailingRunIs(s, pre, r, post);
      assert s[|pre|..|s| - |post|] == r;
    }
  }

  /** The leading trim run of `pre + r + post` is `pre` when `r` starts
      with a character that is not trimmed. */
  lemma LeadingRunIs(s: string, pre: string, r: string, post: string)
    requires s == pre + r + post && AllTrimChars(pre)
    requires |r| > 0 && !IsTrimChar(r[0])
    ensures LeadingRun(s, IsTrimChar) == |pre|
  {
    assert s[|pre|] == r[0];
    forall k | 0 <= k < |pre| ensures IsTrimChar(s[k]) { assert s[k] == pre[k]; }
  }

  /** The trailing trim run of `pre + r + post` is `post` when `r` ends
      with a character that is not trimmed. */
  lemma TrailingRunIs(s: string, pre: string, r: string, post: string)
    requires s == pre + r + post && AllTrimChars(post)
    requires |r| > 0 && !IsTrimChar(r[|r| - 1])
    ensures TrailingRun(s, IsTrimChar) == |post|
  {
    assert s[|s| - |post| - 1] == r[|r| - 1];
    forall k | |s| - |post| <= k < |s|
      ensures IsTrimChar(s[k])
    {
      assert s[k] == post[k - (|s| - |post|)];
    }
  }

  /** Trimming twice is trimming once. */
  lemma TrimIdempotent(s: string)
    ensures Trim(Trim(s)) == Trim(s)
  {
    var r := Trim(s);
    assert r == "" + r + "";
    TrimUnique(r, "", r, "");
  }

  // ---------------------------------------------------------------------
  // split(separator: " ", maxSplits: 1)
  // ---------------------------------------------------------------------

  predicate IsSpace(c: char)
  {
    c == ' '
  }

  /** Swift's `split(separator: " ", maxSplits: 1)` with its default
      `omittingEmptySubsequences: true`: separators before the first piece
      produce no piece and do not use up the one split; the first separator
      after a non-empty piece ends it, and whatever follows (if non-empty,
      spaces included) is the second piece. So `s` is a run of spaces, the
      first piece, and then nothing, a lone trailing space, or one space
      and the second piece. */
  function SplitOnce(s: string): (out: seq<string>)
    ensures |out| <= 2
    ensures forall k :: 0 <= k < |out| ==> |out[k]| > 0
    ensures |out| == 0 <==> forall k :: 0 <= k < |s| ==> IsSpace(s[k])
    ensures |out| > 0 ==> ' ' !in out[0]
    ensures |out| > 0 ==>
      var rest := s[LeadingRun(s, IsSpace)..];
      if |out| == 1 then rest == out[0] || rest == out[0] + " "
      else rest == out[0] + " " + out[1]
    decreases |s|
  {
    if |s| == 0 then []
    else if IsSpace(s[0]) then
      var out := SplitOnce(s[1..]);
      assert forall k :: 1 <= k < |s| ==> s[k] == s[1..][k - 1];
      assert s[LeadingRun(s, IsSpace)..] == s[1..][LeadingRun(s[1..], IsSpace)..];
      out
    else
      var n := WordLength(s);
      assert s[LeadingRun(s, IsSpace)..] == s;
      if n + 1 >= |s| then
        assert s == s[..n] || s == s[..n] + " ";
        [s[..n]]
      else
        assert s == s[..n] + " " + s[n + 1..];
        [s[..n], s[n + 1..]]
  }

  /** Length of the run of non-space characters that starts `s`. */
  function WordLength(s: string): (n: nat)
    ensures n <= |s|
    ensures forall k :: 0 <= k < n ==> s[k] != ' '
    ensures n < |s| ==> s[n] == ' '
    decreases |s|
  {
    if |s| == 0 || s[0] == ' ' then 0 else 1 + WordLength(s[1..])
  }

  /** On a non-empty trimmed line, `SplitOnce` yields the text before the
      first space and, when there is a space, the text after it: gluing
      the pieces back with one space reproduces the line. */
  lemma SplitTrimmedLine(line: string)
    requires |line| > 0 && IsTrimmed(line)
    ensures var out := SplitOnce(line);
      && 1 <= |out| <= 2
      && ' ' !in out[0]
      && (|out| == 1 ==> out[0] == line)
      && (|out| == 2 ==> line == out[0] + " " + out[1])
  {
    var n := WordLength(line);
    if n < |line| {
      assert n + 1 < |line|;
      assert line == line[..n] + " " + line[n + 1..];
    }
  }

  /** Conversely, a word without spaces followed by a space and a
      non-empty rest splits into exactly that word and that rest. */
  // Not inductive; `{:induction false}` keeps the solver from trying induction.
  lemma {:induction false} SplitOnceAt(head: string, rest: string)
    requires |head| > 0 && ' ' !in head && |rest| > 0
    ensures SplitOnce(head + " " + rest) == [head, rest]
  {
    var s := head + " " + rest;
    assert s[0] == head[0];
    WordLengthAt(s, head);
    assert s[..|head|] == head && s[|head| + 1..] == rest;
  }

  /** A word without spaces followed by a space has its own length. */
  lemma {:induction false} WordLengthAt(s: string, head: string)
    requires |head| < |s| && s[..|head|] == head && ' ' !in head && s[|head|] == ' '
    ensures WordLength(s) == |head|
    decreases |head|
  {
    if |head| > 0 {
      assert s[0] == head[0];
      assert s[1..][..|head| - 1] == head[1..];
      WordLengthAt(s[1..], head[1..]);
    }
  }

  /** A non-empty word without spaces is its own single piece. */
  lemma SplitOnceWord(word: string)
    requires |word| > 0 && ' ' !in word
    ensures SplitOnce(word) == [word]
  {
    assert forall k :: 0 <= k < |word| ==> word[k] != ' ';
    assert word[..|word|] == word;
  }

  // ---------------------------------------------------------------------
  // Array.filter
  // ---------------------------------------------------------------------

  /** `xs.filter(p)`. */
  function Keep<T>(xs: seq<T>, p: T -> bool): (r: seq<T>)
    ensures |r| <= |xs|
    ensures forall k :: 0 <= k < |r| ==> p(r[k])
    decreases |xs|
  {
    if |xs| == 0 then []
    else (if p(xs[0]) then [xs[0]] else []) + Keep(xs[1..], p)
  }

  /** `r` is the order-preserving subsequence of `xs` picked out by the
      strictly increasing positions `idx`, and those positions are exactly
      the ones whose element satisfies `p`. */
  ghost predicate IsSelection<T>(r: seq<T>, xs: seq<T>, p: T -> bool, idx: seq<nat>)
  {
    && |idx| == |r|
    && (forall k :: 0 <= k < |idx| ==> idx[k] < |xs| && r[k] == xs[idx[k]])
    && (forall k, l :: 0 <= k < l < |idx| ==> idx[k] < idx[l])
    && (forall i :: 0 <= i < |xs| ==> (p(xs[i]) <==> i in idx))
  }

  /** Every position moved one place to the right. */
  function Shift(idx: seq<nat>): (r: seq<nat>)
    ensures |r| == |idx|
    ensures forall k :: 0 <= k < |idx| ==> r[k] == idx[k] + 1
  {
    seq(|idx|, k requires 0 <= k < |idx| => idx[k] + 1)
  }

  lemma ShiftMembership(idx: seq<nat>, i: int)
    ensures i in Shift(idx) <==> i - 1 in idx
  {
    var sh := Shift(idx);
    if i - 1 in idx {
      var k :| 0 <= k < |idx| && idx[k] == i - 1;
      assert sh[k] == i;
    }
    if i in sh {
      var k :| 0 <= k < |sh| && sh[k] == i;
      assert idx[k] == i - 1;
    }
  }

  /** Position `i > 0` of `[x] + tail` is selected by the shifted
      positions exactly when it satisfies `p`. */
  lemma ShiftedPositions<T>(x: T, tail: seq<T>, p: T -> bool, idx: seq<nat>)
    requires forall i :: 0 <= i < |tail| ==> (p(tail[i]) <==> i in idx)
    ensures forall i :: 1 <= i < |tail| + 1 ==> (p(([x] + tail)[i]) <==> i in Shift(idx))
    ensures 0 !in Shift(idx)
  {
    forall i | 1 <= i < |tail| + 1
      ensures p(([x] + tail)[i]) <==> i in Shift(idx)
    {
      ShiftMembership(idx, i);
      assert ([x] + tail)[i] == tail[i - 1];
    }
  }

  /** A selection from `tail` extends to `[x] + tail` when `x` is kept. */
  lemma SelectionConsKept<T>(x: T, tail: seq<T>, p: T -> bool, r: seq<T>, idx: seq<nat>)
    requires IsSelection(r, tail, p, idx) && p(x)
    ensures IsSelection([x] + r, [x] + tail, p, [0] + Shift(idx))
  {
    KeptPicks(x, tail, r, idx);
    KeptIncreasing(idx);
    ShiftedPositions(x, tail, p, idx);
    var xs := [x] + tail;
    var idx2 := [0] + Shift(idx);
    forall i | 0 <= i < |xs|
      ensures p(xs[i]) <==> i in idx2
    {
      if i > 0 {
        assert i in idx2 <==> i in Shift(idx);
      }
    }
  }

  /** Consing `x` onto both sides keeps every picked element in place. */
  lemma KeptPicks<T>(x: T, tail: seq<T>, r: seq<T>, idx: seq<nat>)
    requires |idx| == |r|
    requires forall k :: 0 <= k < |idx| ==> idx[k] < |tail| && r[k] == tail[idx[k]]
    ensures var xs, idx2, r2 := [x] + tail, [0] + Shift(idx), [x] + r;
      forall k :: 0 <= k < |idx2| ==> idx2[k] < |xs| && r2[k] == xs[idx2[k]]
  {
    var xs, idx2, r2 := [x] + tail, [0] + Shift(idx), [x] + r;
    forall k | 0 <= k < |idx2|
      ensures idx2[k] < |xs| && r2[k] == xs[idx2[k]]
    {
      if k > 0 {
        assert idx2[k] == idx[k - 1] + 1;
        assert r2[k] == r[k - 1];
        assert xs[idx2[k]] == tail[idx[k - 1]];
      }
    }
  }

  /** Shifted increasing positions behind a leading `0` still increase. */
  lemma KeptIncreasing(idx: seq<nat>)
    requires forall k, l :: 0 <= k < l < |idx| ==> idx[k] < idx[l]
    ensures var idx2 := [0] + Shift(idx);
      forall k, l :: 0 <= k < l < |idx2| ==> idx2[k] < idx2[l]
  {
    var idx2 := [0] + Shift(idx);
    forall k, l | 0 <= k < l < |idx2|
      ensures idx2[k] < idx2[l]
    {
      if k > 0 {
        assert idx2[k] == idx[k - 1] + 1 && idx2[l] == idx[l - 1] + 1;
      }
    }
  }

  /** A selection from `tail` is one from `[x] + tail` when `x` is dropped. */
  lemma SelectionConsDropped<T>(x: T, tail: seq<T>, p: T -> bool, r: seq<T>, idx: seq<nat>)
    requires IsSelection(r, tail, p, idx) && !p(x)
    ensures IsSelection(r, [x] + tail, p, Shift(idx))
  {
    var xs := [x] + tail;
    var sh := Shift(idx);
    ShiftedPositions(x, tail, p, idx);
    forall k | 0 <= k < |sh|
      ensures sh[k] < |xs| && r[k] == xs[sh[k]]
    {
      assert xs[sh[k]] == tail[idx[k]];
    }
  }

  /** `Keep` returns exactly the elements satisfying `p`, in their original
      order, each kept occurrence once. */
  lemma {:induction false} KeepIsSelection<T>(xs: seq<T>, p: T -> bool)
    ensures exists idx :: IsSelection(Keep(xs, p), xs, p, idx)
    decreases |xs|
  {
    if |xs| == 0 {
      assert IsSelection(Keep(xs, p), xs, p, []);
    } else {
      KeepIsSelection(xs[1..], p);
      var idx :| IsSelection(Keep(xs[1..], p), xs[1..], p, idx);
      var idx2 := KeepStepSelection(xs, p, idx);
    }
  }

  /** The selection of `Keep(xs[1..], p)` extends to one of `Keep(xs, p)`. */
  lemma KeepStepSelection<T>(xs: seq<T>, p: T -> bool, idx: seq<nat>) returns (idx2: seq<nat>)
    requires |xs| > 0 && IsSelection(Keep(xs[1..], p), xs[1..], p, idx)
    ensures IsSelection(Keep(xs, p), xs, p, idx2)
  {
    var x, tail := xs[0], xs[1..];
    assert xs == [x] + tail;
    KeepCons(x, tail, p);
    if p(x) {
      SelectionConsKept(x, tail, p, Keep(tail, p), idx);
      idx2 := [0] + Shift(idx);
    } else {
      SelectionConsDropped(x, tail, p, Keep(tail, p), idx);
      idx2 := Shift(idx);
    }
  }

  /** One step of `Keep` on `[x] + tail`. */
  lemma KeepCons<T>(x: T, tail: seq<T>, p: T -> bool)
    ensures Keep([x] + tail, p) == (if p(x) then [x] + Keep(tail, p) else Keep(tail, p))
  {
    var xs := [x] + tail;
    assert xs[0] == x && xs[1..] == tail;
  }

  /** A filter that every element passes changes nothing. */
  lemma {:induction false} KeepAll<T>(xs: seq<T>, p: T -> bool)
    requires forall k :: 0 <= k < |xs| ==> p(xs[k])
    ensures Keep(xs, p) == xs
    decreases |xs|
  {
    if |xs| > 0 {
      KeepAll(xs[1..], p);
      assert [xs[0]] + xs[1..] == xs;
    }
  }
}

=== FILE: wrappers.dfy ===
/** Failure-compatible wrappers used by the parser: `Option` for a search that
    may find nothing, `Result` for a parse that may stop with an error. */
module Wrappers {

  datatype Option<+T> = None | Some(value: T)

  datatype Result<+T, +E> = Ok(value: T) | Err(error: E) {

    predicate IsFailure() {
      Err?
    }

    function PropagateFailure<U>(): Result<U, E>
      requires Err?
    {
      Err(error)
    }

    function Extract(): T
      requires Ok?
    {
      value
    }
  }
}
